=== FILE: README.md ===
# timeo-workinghours in Dafny

A model of the core of timeo-workinghours, a browser app for recording working
hours. The user creates a calendar year. The app then writes twelve months and
one row per calendar day into an IndexedDB store. The user types start and end
times, a second block and a break into each day, or marks the day with an
absence code:

| code | meaning |
|---|---|
| K | sick |
| KK | child sick |
| U | holiday |
| FT | public holiday |

The app derives worked hours (`istStunden`) per day and statistics per month
and per year. After every change it mirrors the whole store into a three-table
SQLite backup. At startup it rebuilds the store from that backup when the
backup holds any year.

The modules follow the program's structure:

| module | file | what it covers |
|---|---|---|
| `Wrappers` | wrappers.dfy | `Option` and `Result` |
| `Calendar` | calendar.dfy | Gregorian month lengths, weekdays and the ISO 8601 week number as `getISOWeek` computes it |
| `Records` | records.dfy | the Year, Month, Day and Stats records of `src/types.ts`, and the code labels |
| `TimeCalc` | timecalc.dfy | `calculateWorkHours` on `HH:MM` fields |
| `StatsEngine` | stats.dfy | `calculateStats` as one fold over the days, and the year view's sum of month stats |
| `Store` | store.dfy | the store operations of `src/db.ts` as functions from store to store |
| `StoreProps` | store_props.dfy | what `createMonth`, `createYear`, `deleteYear` and the code operations promise about the whole store |
| `Queries` | queries.dfy | the index queries behind `getMonthStats`, `getMonthsForYear` and `getYearStats` |
| `Sync` | sync.dfy | `syncToSQLite` (mirror), `syncFromSQLite` (rebuild), `hasSQLiteData`, the startup choice and the backup import |
| `App` | app.dfy | the pure logic of `src/App.tsx`: row and difference classes, weekly totals, navigation, the optimistic edit and the save, code and year handlers |
| `Debounce` | debounce.dfy | the month table's delayed save: the one shared timer `useDebounce` keeps, and a timer per field of each day for comparison |

Modelling choices:

- **Store.** A store is three tables: years, months and days. Each table is a
  map from key to row plus the table's auto-increment key generator `next`.
  An insert takes key `next` and bumps it. Deleting and clearing never lower
  it.
- **Keyed.** `Keyed` states the invariant IndexedDB keeps: every key is below
  its table's generator. The store operations preserve it. The facts that
  need a fresh key assume it.
- **Rebuild.** Rebuilding adds rows with explicit ids. The generator becomes
  `KeyAbove`, the larger of its old value and the largest id plus one.
- **Hours.** Hours are exact `real`s. The computation works in whole minutes.
- **Dates.** `new Date(y, m - 1, d)` maps years 0..99 to 1900..1999 (`JsYear`).
  `getISOWeek` rebuilds the date with `Date.UTC`, which applies that mapping
  once more to the year of the week's Thursday. The model keeps both
  mappings.
- **Date text.** The `date` text of a day becomes the calendar date it names.
- **Weekend flag in the backup.** SQLite stores the boolean `isWeekend` as
  0 or 1. The snapshot rows keep that integer (`DayRow`). The rebuild reads it
  back with `!= 0`, the way every reader in the app tests it for truthiness.
- **Mirror failures.** The backup's `years` table declares `year INTEGER
  UNIQUE`. A store holding two rows with the same year number therefore
  aborts the mirror at the second one. The mirror catches the error. The
  backup is left with the years inserted so far and empty months and days.
  The app's own operations never create such a store (`UniqueYears`).
- **Other INSERTs.** The months and days INSERTs cannot fail: their ids are
  distinct and foreign keys are not enforced.
- **Missing days.** `updateDay` and `setDayCode` on a missing day change
  nothing and return nothing. `clearDayCode` on a missing day throws when it
  reads the missing day's weekend flag, modelled as `NoSuchDay`.
- **Unreadable backup.** A backup without the three tables (`Unreadable`)
  makes the mirror fail at its first DELETE. It makes the rebuild fail at its
  first SELECT, after the store was already cleared.

The import has a failure branch: its `catch` returns false (src/db.ts:653-656),
and its caller then shows an import error (src/App.tsx:212). A file that is not
a backup never reaches that branch: `importSQLiteFile` reports success and the
store is left empty. The model follows the code; see Findings.

## Model

| member | source | states |
|---|---|---|
| Calendar.DaysInMonth | src/db.ts:111 | a month has 28 to 31 days; 29 exactly for February of a Gregorian leap year, 28 for any other February, 30 exactly for April, June, September and November |
| Calendar.IsoWeekday | src/db.ts:351 | `getUTCDay()` with Sunday turned into 7 numbers Monday 1 to Sunday 7 and agrees with the JS weekday modulo 7 |
| Calendar.NextDateWeekday | src/db.ts:113-115 | the weekday `getDay()` reports for the following date is one more, modulo 7, so weekdays follow the calendar across month and year ends |
| Calendar.IsoWeekRange | src/db.ts:347-355 | every valid date outside the years the `Date.UTC` mapping shifts gets an ISO week from 1 to 53 |
| Calendar.January4thInWeekOne | src/db.ts:347-355 | 4 January is always in week 1, the week-one rule of ISO 8601 week dates |
| Calendar.WeekChangesOnlyOnMonday | src/db.ts:347-355 | two consecutive days have the same ISO week unless the later one is a Monday |
| TimeCalc.CalculateWorkHours | src/db.ts:265-296 | the hours are never negative; they are the net minutes (each block with both ends filled, minus the break) over 60 when those are non-negative, and 0 when they are not |
| TimeCalc.StandardDayExample | src/db.ts:265-296 | 08:00 to 16:00 with a 00:30 break is 7.5 hours |
| TimeCalc.AbsenceTimesAreEightHours | src/db.ts:220-224 | the times an absence code writes (08:00 to 16:00, no second block, 00:00 break) compute to exactly 8 hours |
| TimeCalc.BlocksCommute | src/db.ts:273-285 | swapping the first and the second block does not change the hours |
| TimeCalc.HalfFilledBlockIgnored | src/db.ts:274-285 | a block with an empty start or end contributes nothing |
| TimeCalc.LongerBreakNeverMoreHours | src/db.ts:287-294 | a longer break never gives more hours |
| StatsEngine.TallyOf | src/db.ts:307-329 | the loop counts at most one workday per day and at most one absence per day |
| StatsEngine.Finish | src/db.ts:331-344 | `differenz` is worked minus planned hours; `durchschnitt` is 0 without workdays and otherwise times the workdays gives the worked hours |
| StatsEngine.CalculateStats | src/db.ts:298-345 | workdays and absences are at most the number of days; `differenz` is worked minus planned hours; `durchschnitt` times workdays is the worked hours, or 0 without workdays |
| StatsEngine.WorkdaysCountDays | src/db.ts:307-329 | the loop's workday counter equals the number of days whose weekend flag is false |
| StatsEngine.CodeCounterCountsDays | src/db.ts:307-329 | each absence counter of the loop equals the number of days carrying that code |
| StatsEngine.BlankDaysCount | src/db.ts:307-329 | the four absence counters plus the days without a code make up all the days |
| StatsEngine.CountersCountDays | src/db.ts:298-345 | `arbeitstage` counts exactly the non-weekend days, coded or not, and each of `krank`, `kindkrank`, `urlaub`, `feiertag` counts exactly the days with its own code |
| StatsEngine.CodesPartitionDays | src/db.ts:298-345 | the four absence counters and the days with a blank code partition the days |
| StatsEngine.StatsCarryTally | src/db.ts:331-344 | the counters and hour sums in the result are those of the loop |
| StatsEngine.TallyConcat | src/db.ts:307-329 | the loop over two lists joined is the sum of the loops over each |
| StatsEngine.TallyPermutation | src/db.ts:307-329 | the loop's counters and sums do not depend on the order of the days |
| StatsEngine.StatsOrderIndependent | src/db.ts:298-345 | any reordering of the days gives the same stats |
| StatsEngine.AggregateYearStats | src/App.tsx:396-409 | the reduce from `{}` leaves the view unfilled (undefined counters, NaN `differenz`) exactly when there are no months; otherwise the counters are the month counters' sums, `differenz` is worked minus planned hours, and `durchschnitt` is the hours per workday, or 0 without workdays |
| StatsEngine.SumCountersIsTally | src/App.tsx:396-405 | adding up the per-month counters gives the counters of all the months' days together |
| StatsEngine.YearStatsFromMonths | src/App.tsx:396-409 | over one or more months, the year view's stats summed from per-month stats equal `calculateStats` over all the year's days in any order; over none the view is unfilled |
| Store.Insert | src/db.ts:55 | an add stores the row under the key the generator held, which is fresh when the keys are below it, and bumps the generator by one |
| Store.KeyOrder | src/db.ts:469-471 | `toArray()` lists exactly the table's keys, in strictly increasing order |
| Store.NewDay | src/db.ts:113-138 | a new day row carries its month, year and day, the JS weekday, weekend iff Saturday or Sunday, break 00:30 and 8 planned hours on workdays, no break and 0 planned hours at weekends, no code and 0 worked hours |
| Store.NewDays | src/db.ts:112-139 | the days of a month occupy exactly the consecutive keys the generator hands out |
| Store.NewDaysAt | src/db.ts:112-139 | the row under the i-th new key is the new row for day i |
| Store.CreateMonth | src/db.ts:103-142 | one month row under a fresh key, then exactly one new day row per day of the month under the following day keys; years untouched; the key invariant kept |
| Store.AddMonths | src/db.ts:57-60 | the month loop leaves the years untouched and keeps the key invariant |
| Store.CreateYear | src/db.ts:47-63 | fails with `YearExists` exactly when the year number is taken; otherwise adds exactly one year row under a fresh key |
| Store.DeleteYear | src/db.ts:65-72 | removes the year row and exactly the months and days carrying its id; every other row is kept unchanged; generators untouched |
| Store.UpdatedDay | src/db.ts:171-193 | fields in the update take the new value and the others keep theirs; the references and calendar fields (month and year ids, year, month, day, date, weekday, weekend flag, ISO week) never change; without a time or code field the hours are the update's or the old ones; with one, a code gives 8 planned and 8 worked hours, and no code gives the computed working time |
| Store.UpdateDay | src/db.ts:167-207 | a missing day changes nothing and returns nothing; otherwise only that day's row is replaced, by the updated row, which is returned |
| Store.SetDayCode | src/db.ts:209-237 | the day gets the code and its label, 08:00 to 16:00 with an empty second block and a 00:00 break, 8 planned and 8 worked hours, which its times compute to; its references and calendar fields are kept; a missing day is left missing; nothing else changes |
| Store.ClearDayCode | src/db.ts:239-262 | fails exactly on a missing day; otherwise only that day's row changes, to no code, no comment, no times, 0 worked hours, and the weekend-aware defaults: no break and 0 planned hours on a weekend, a 00:30 break and 8 planned hours on a workday; its references and calendar fields are kept |
| StoreProps.CreateMonthDay | src/db.ts:103-142 | after `createMonth` a day row is either an old row, unchanged, or a new row for the new month under one of the new keys |
| StoreProps.CreateMonthAddedDay | src/db.ts:112-139 | each key the month's days received was free before and now holds the new row for its day |
| StoreProps.CreateMonthOlderDay | src/db.ts:112-139 | a key outside the new range is an older day row, unchanged |
| StoreProps.CreateMonthKeepsDay | src/db.ts:103-142 | `createMonth` keeps every existing day row |
| StoreProps.NewMonthDays | src/db.ts:103-142 | the days of the new month are exactly the new day keys |
| StoreProps.NewMonthDay | src/db.ts:112-139 | every day of the new month is numbered from 1 to the month's length and is the new row for that day |
| StoreProps.CreateMonthFillsMonth | src/db.ts:103-142 | the new month holds exactly one day row per day from 1 to its length, each as created |
| StoreProps.CreateMonthKeepsDaysHaveMonths | src/db.ts:103-142 | every day row still points to an existing month |
| StoreProps.AddMonthsNext | src/db.ts:57-60 | after the loop the month generator is 12 past its start |
| StoreProps.AddMonthsKeepsMonths | src/db.ts:57-60 | the month loop keeps every existing month row |
| StoreProps.AddMonthsNewMonth | src/db.ts:57-60 | the loop's k-th key holds month k of the year |
| StoreProps.AddMonthsOnlyNewMonths | src/db.ts:57-60 | the loop adds month rows only under its own keys |
| StoreProps.AddMonthsKeepsDay | src/db.ts:57-60 | the month loop keeps every existing day row |
| StoreProps.AddMonthsNewDay | src/db.ts:57-60 | every day row the loop adds belongs to the year and to one of the loop's months |
| StoreProps.AddMonthsKeepsLinks | src/db.ts:57-60 | the loop keeps every month pointing to an existing year and every day to a month of its own year |
| StoreProps.AddMonthsKeepsFilled | src/db.ts:57-60 | months that were full before the loop stay full |
| StoreProps.AddMonthsFills | src/db.ts:57-60 | every month the loop adds is full |
| StoreProps.WithYear | src/db.ts:55 | adding the year row leaves months and days alone and puts the row under the generator's key |
| StoreProps.CreateYearIsLoop | src/db.ts:47-63 | a created year gets the generator's key, and the store is the year row followed by the twelve-month loop |
| StoreProps.NothingUnderNewKey | src/db.ts:55 | no month or day yet refers to a year key that is not in use |
| StoreProps.WithYearKeepsLinks | src/db.ts:55 | adding a year row keeps all references intact |
| StoreProps.CreateYearKeepsGood | src/db.ts:47-63 | `createYear` keeps the key invariant, the references and the uniqueness of year numbers |
| StoreProps.CreateYearKeepsUniqueYears | src/db.ts:47-55 | the duplicate check keeps year numbers unique |
| StoreProps.CreateYearMonthKey | src/db.ts:57-60 | the new year's months are exactly the twelve new month keys, the k-th holding month k |
| StoreProps.CreateYearMonths | src/db.ts:57-60 | the new year has exactly 12 months, numbered 1 to 12 in key order |
| StoreProps.CreateYearDays | src/db.ts:57-60 | each month of the new year holds one row per calendar day |
| StoreProps.DeleteAfterCreate | src/db.ts:47-72 | deleting a year just created gives back the rows of all three tables exactly |
| StoreProps.DeleteAfterCreateMonths | src/db.ts:65-72 | deleting a year just created gives back the month rows |
| StoreProps.DeleteAfterCreateDays | src/db.ts:65-72 | deleting a year just created gives back the day rows |
| StoreProps.DeleteAfterLoopMonths | src/db.ts:57-72 | deleting the year's months after the loop gives back the month rows |
| StoreProps.DeleteAfterLoopDays | src/db.ts:57-72 | deleting the year's days after the loop gives back the day rows |
| StoreProps.DeleteAfterLoopDay | src/db.ts:57-72 | one day key at a time: after the loop and the delete, it is present exactly when it was, with the same row |
| StoreProps.DeleteYearKeepsGood | src/db.ts:65-72 | the cascade leaves no month or day without its parent and keeps the key invariant and unique years |
| StoreProps.ClearRestoresNewDay | src/db.ts:129-137 | clearing the code of any edited version of a created day gives back that day exactly as `createMonth` wrote it |
| StoreProps.SetThenClear | src/db.ts:209-262 | setting any code on a freshly created day and clearing it again restores the store exactly |
| Queries.MonthDayLists | src/db.ts:83-97 | the i-th list holds the days of the i-th month |
| Queries.MonthStatsList | src/db.ts:90-95 | the i-th entry is `getMonthStats` of the i-th month |
| Queries.FlatKeys | src/db.ts:144-149 | the months' day keys together are exactly the days whose month is among them |
| Queries.FlatKeysDistinct | src/db.ts:144-149 | distinct months have no day in common |
| Queries.FlattenRows | src/db.ts:144-149 | the months' day lists joined are the rows under their day keys |
| Queries.RowsAtPerm | src/db.ts:74-80 | reordering the keys a query returns reorders its rows |
| Queries.YearWithoutMonthsHasNoDays | src/db.ts:74-79 | in a store whose days belong to months of their own year, a year without months has no days for `getYearStats` to count |
| Queries.YearViewOfMonths | src/App.tsx:396-409 | in a store whose days belong to months of their own year, the year view over one or more months, in any order, shows exactly `getYearStats` of the year |
| Queries.YearViewMatchesYearStats | src/App.tsx:396-409 | in a store whose days belong to months of their own year, the year view's sum over the year's months, in any order, is exactly `getYearStats` of the year when the year has months; a year without months has no days, yet its view is unfilled instead of showing zeros |
| Sync.ToRow | src/db.ts:495-520 | a day goes into the backup with its weekend flag as 1 or 0 |
| Sync.FromRow | src/db.ts:708-717 | a backup row comes back with weekend exactly when its flag is non-zero |
| Sync.DayRoundTrip | src/db.ts:495-520 | writing a day to the backup and reading it back gives the same day |
| Sync.RowRoundTrip | src/db.ts:708-717 | a backup row with a 0 or 1 flag survives reading into a day and writing it back |
| Sync.Encode | src/db.ts:468-520 | the backup receives the years and months as they are and the days row for row under the same ids |
| Sync.InsertYearsSpec | src/db.ts:481-486 | the year INSERTs copy only store rows, keep year numbers unique in the table, succeed whenever the store's year numbers are unique, and on success hold exactly the inserted keys |
| Sync.Mirror | src/db.ts:466-528 | no backup gives no backup; an unreadable one stays as it is; a readable one ends as three tables with 0/1 weekend flags |
| Sync.MirrorCopiesStore | src/db.ts:466-528 | the backup ends as an exact copy of the store exactly when the store's year numbers are unique |
| Sync.MirrorStopsAtDuplicate | src/db.ts:481-486 | with a duplicate year number the backup keeps only some of the years, unique and unchanged, and no months or days |
| Sync.HasData | src/db.ts:450-464 | a backup has data exactly when it is readable and holds at least one year |
| Sync.KeyAbove | src/db.ts:689 | after adds with explicit ids the generator is above every id, never below its old value, and either unchanged or one past an id |
| Sync.Refill | src/db.ts:682-719 | a table refilled from backup rows holds exactly those rows, below a generator that did not move back |
| Sync.Clear | src/db.ts:667-669 | clearing a table removes every row and keeps its generator |
| Sync.Rebuild | src/db.ts:659-730 | no backup changes nothing; an unreadable one leaves the store empty; a readable one leaves exactly its rows in the store under their ids; the key invariant holds and no generator moves back |
| Sync.MirrorThenRebuild | src/db.ts:466-528 | mirroring a store with unique year numbers and rebuilding from the backup gives back all its rows, and the whole store when its keys are below its generators |
| Sync.KeyAboveOfKeyed | src/db.ts:689 | a generator already above every key does not move |
| Sync.RebuildThenMirror | src/db.ts:659-730 | rebuilding from a backup with unique year numbers and mirroring back leaves the backup exactly as it was |
| Sync.Startup | src/App.tsx:802-833 | without a backup the store runs alone; a backup with data is kept as it is and the store takes over its rows; otherwise the store is kept and mirrored into the backup |
| Sync.StartupSyncs | src/App.tsx:808-823 | either way, after startup the store and the backup agree and year numbers are unique |
| Sync.ImportAsWritten | src/db.ts:640-657 | with a backup database open the import always reports success and installs the file; an unreadable file leaves the store without any row; a readable one leaves the store holding its years and months |
| Sync.ImportAsWrittenLosesData | src/db.ts:640-657 | importing an unreadable file reports success and leaves the store without any year |
| Sync.ImportChecked | src/db.ts:640-657 | succeeds exactly for a readable file while a backup database is open, and otherwise changes neither store nor backup; on success the file is the backup and the store holds its years and months with the key invariant |
| Sync.ImportCheckedSyncs | src/db.ts:640-657 | a readable file with unique year numbers is imported, and store and backup then agree |
| App.GetDiffClass | src/App.tsx:30-34 | positive exactly above 0.01, negative exactly below -0.01, neutral exactly in between, bounds included |
| App.DiffClassSymmetric | src/App.tsx:30-34 | negating the difference swaps positive and negative and keeps neutral |
| App.CodedDayIsNeutral | src/App.tsx:604 | a day with an absence code always shows a neutral difference |
| App.GetRowClass | src/App.tsx:36-43 | a coded day shows its code's class, whatever its weekend flag; an uncoded day shows the weekend class exactly when it is a weekend day and no class otherwise |
| App.RowClassShowsCode | src/App.tsx:36-43 | different codes give different classes |
| App.RowClassAfterCodeChange | src/App.tsx:522-547 | after applying a code the row shows that code's class; after clearing, the weekend class exactly for weekend days |
| App.GetWeeklyHours | src/App.tsx:550-559 | the map has an entry exactly for each ISO week some day falls in, holding the worked hours of that week's days |
| App.SumWeeksStep | src/App.tsx:550-559 | one more day adds its hours to the total over any list of distinct weeks that holds its week |
| App.WeeksAddUp | src/App.tsx:550-559 | summed over distinct weeks covering every day, the weekly totals give the total worked hours |
| App.SumWeeksEmpty | src/App.tsx:550-559 | with no days every weekly total is 0 |
| App.WeeklyHoursAddUp | src/App.tsx:550-559 | the entries of the weekly map add up to the total worked hours of the month |
| App.StartNav | src/App.tsx:770-776 | the app starts on the year list with nothing selected |
| App.SelectYear | src/App.tsx:835-838 | selecting a year opens its page with that year selected |
| App.SelectMonth | src/App.tsx:840-843 | selecting a month opens its page with that month selected and keeps the year |
| App.Back | src/App.tsx:845-853 | from a month back to its year with the month cleared; from a year back to the list with the year cleared; on the list nothing changes; a consistent state stays consistent |
| App.CrumbHome | src/App.tsx:858-863 | the home crumb returns to the start state |
| App.CrumbYear | src/App.tsx:868-875 | the year crumb opens the selected year with the month cleared |
| App.BackUndoesSelect | src/App.tsx:835-853 | back undoes selecting a month, and selecting a year from the start |
| App.BackIsCrumbYear | src/App.tsx:845-875 | on a month page, back and the year crumb lead to the same state |
| App.DaysOfRows | src/App.tsx:492-497 | the page's days are its rows' days in order |
| App.Replace | src/App.tsx:494 | only the row with the matching id takes the new day; ids and order are kept |
| App.Refresh | src/App.tsx:492-497 | no returned day keeps the page; a returned day replaces the matching row and the stats are recomputed from the new rows |
| App.SetField | src/App.tsx:516-518 | the optimistic edit sets exactly the named field |
| App.SaveMatchesOptimistic | src/App.tsx:487-490 | the store's merge of a one-field update gives the same day the optimistic edit showed |
| App.EditRows | src/App.tsx:510-520 | the edit changes only the named field of the rows with the matching id; other rows, ids and stats are kept |
| App.SaveDay | src/App.tsx:487-507 | the backup ends as the mirror of the new store; a missing day leaves store and page as they were; otherwise only that day's row changes, to the `updateDay` result, and the page's row for it shows the stored day |
| App.EditThenSaveShowsStore | src/App.tsx:487-520 | after an edit whose save runs, the page shows the store and the backup agrees with the store; a save the shared debounce timer cancels is covered by `Debounce.SharedTimerLosesEdit` |
| App.CodeChoice | src/App.tsx:744-751 | the selector clears for the blank code and applies any other code |
| App.CodeApply | src/App.tsx:522-534 | a blank code changes nothing; any other leaves the backup mirroring the new store, leaves store and page alone for a missing day, and otherwise replaces only that day's row, by the `setDayCode` row (the code, its label, 08:00 to 16:00, no second block, a 00:00 break, 8 planned and 8 worked hours), shown in the page |
| App.CodeClear | src/App.tsx:536-547 | fails exactly for a missing day; otherwise only that day's row is replaced, by the `clearDayCode` row (no code, comment or times, 0 worked hours, and no break with 0 planned hours on a weekend or a 00:30 break with 8 planned hours on a workday), the page's row shows it and the backup mirrors the store |
| App.SelectThenClear | src/App.tsx:522-547 | a code chosen in the selector is applied, and choosing the blank code afterwards leaves the day without code and hours and the page showing it |
| App.CodeHandlersKeepSync | src/App.tsx:522-547 | after any code choice the page shows the store and the backup agrees with it |
| App.RefreshShows | src/App.tsx:525-530 | refreshing the page with the stored day keeps it showing the store |
| App.CreateYearAndSync | src/App.tsx:178-187 | fails exactly when the year number is taken; otherwise the new store holds the year and the backup mirrors it |
| App.DeleteYearAndSync | src/App.tsx:189-196 | an unconfirmed delete changes nothing; a confirmed one removes the year row, leaves no month or day of that year and leaves the backup mirroring the store |
| App.YearHandlersKeepGood | src/App.tsx:178-196 | both handlers keep the store consistent, and after a change the backup agrees with it |
| Debounce.ScheduleShared | src/App.tsx:89-101 | the one timer: scheduling a save leaves exactly that save pending and cancels every other |
| Debounce.ScheduleKeyed | src/App.tsx:508-520 | one timer per field of each day: the new save is pending, pending saves for other fields or days stay, and nothing else is added |
| Debounce.EditAll | src/App.tsx:510-520 | a burst of `handleInputChange` calls keeps the rows and their ids and the stats, and leaves only saves that were pending or made in the burst |
| Debounce.RunSaves | src/App.tsx:487-507 | running the pending saves keeps the stored times well formed, and leaves the stored row and the page row of every day without a pending save as they were |
| Debounce.PendingIds | src/App.tsx:508-520 | the days with a save pending are exactly the days some pending save names |
| Debounce.SaveKeepsTimed | src/db.ts:171-193 | a save of a blank or `HH:MM` time, or of a comment, keeps every stored day's times well formed |
| Debounce.EditsKeepShowsBut | src/App.tsx:510-520 | with a timer per field, each optimistic edit leaves the page showing the store except on days with a save pending |
| Debounce.SaveKeepsShowsBut | src/App.tsx:487-507 | running the first pending save keeps the page showing the store except on days the remaining saves are for |
| Debounce.SavesRestoreShows | src/App.tsx:487-507 | once all pending saves have run, such a page shows the store |
| Debounce.PerFieldTimersShowStore | src/App.tsx:487-520 | with a timer per field of each day, any burst of edits ends, once its saves have run, with the page showing the store: no edit is lost |
| Debounce.SharedTimerLosesEdit | src/App.tsx:89-101 | with the one shared timer, an edit to one day followed within the delay by an edit to another day runs only the second save: the first day's stored row is unchanged while its page row shows the edit, so the page no longer shows the store |

## Left out

- Dexie and IndexedDB, sql.js and its WASM loading (`initSQLite`): the store and the backup are plain maps of rows. `initSQLite` failing is the backup being absent (`None`).
- The redundant persistence of the backup in localStorage and IndexedDB, its Base64 encoding, and the file export: these are I/O. Import keeps only "the file becomes the backup, then rebuild".
- The background mirror `updateDay`, `setDayCode` and `clearDayCode` start without waiting, and its race with the handler's own mirror: this is concurrency. The mirror is an explicit step after each operation.
- React rendering, the save indicator's timeout and the clock behind the debounce: these are UI and timing. One debounce timer serves the whole month table (`useDebounce` keeps a single `timeoutRef`, src/App.tsx:89-101, and the table calls it once, src/App.tsx:508). A later edit to any field of any day within 500 ms therefore drops the earlier save. `App.SaveDay` and `App.EditThenSaveShowsStore` cover an edit whose save runs. `Debounce` models bursts of edits that all arrive within the delay, without a clock; see Findings.
- The theme switch: this is browser I/O.
- `formatHours` and floating point: hours are exact reals.
- The `date` text from `toISOString`: it depends on the host time zone. The model keeps the calendar date instead.
- Malformed `HH:MM` input, which turns into NaN: time fields are required to be blank or `HH:MM` (`WellTimed`).
- A backup file whose tables exist but are only partly readable: a backup is either the three tables or `Unreadable`.
- `getDaysForMonth`'s sort by day number and `getAllYears`' sort by year: only the page shows the order, and the stats do not depend on it (`StatsEngine.StatsOrderIndependent`). `Queries.YearViewMatchesYearStats` holds for the months in any order.
- `getYear`, `getMonth` and `getDay`: these are plain key lookups.
- `Calendar.DaysInMonth`: gives the Gregorian length for every year. JavaScript dates end at 275760-09-13 and begin at -271821-04-20, so for years above 275760 or below -271821 `new Date(year, month, 0).getDate()` is NaN. The year field's 2000..2100 bounds do not stop a typed value. The model has no such range.
- `Store.CreateMonth`: always adds one row per day of the month. In the source, a month outside the JavaScript date range gets its month row and no day rows, since the loop's bound is NaN. In the edge years the months from September 275760 on get no days, and so do January to March -271821. Of April -271821's rows, the days before the 20th carry invalid dates. The exact edge moves with the local time zone.
- `StoreProps.CreateYearDays`: every new month is full only for years inside the JavaScript date range. Outside it the source creates the year and its 12 months with no days, as the `Store.CreateMonth` line above says.
- `Calendar.IsoWeekRange` and `Calendar.January4thInWeekOne`: stated for full years outside -1..100. For those 102 full years the second year mapping in `getISOWeek` moves the start of the ISO year by 1900 years. Day rows pass the full year `JsYear(year)`, which turns entered years 0..99 into 1900..1999, so among entered years only -1 and 100 land in that range.
- `Sync.RebuildThenMirror`: stated for backups whose year numbers are unique and whose weekend flags are 0 or 1. These are what the mirror writes, and what the UNIQUE column guarantees.

## Findings

| source | as written | input that shows it | evidently intended | confidence | as-written member | corrected member |
|---|---|---|---|---|---|---|
| src/db.ts:640-657 | `importSQLiteFile` opens any file as a database and calls `syncFromSQLite`. That call clears the store, then fails on its first SELECT, and swallows the error. The import then reports success. | a file without the `years`, `months` and `days` tables, imported while the store holds years | the import's `catch` branch at src/db.ts:653-656 returns false, and the caller then shows 'Fehler beim Importieren des Backups' (src/App.tsx:212); a file that cannot be read is meant to take that branch, so the import is refused and the store is kept | not executed | Sync.ImportAsWritten, Sync.ImportAsWrittenLosesData | Sync.ImportChecked, Sync.ImportCheckedSyncs |
| src/App.tsx:89-101 | `useDebounce` keeps one `timeoutRef` for every call, and the month table creates a single `debouncedSave` for all rows and fields (src/App.tsx:508). Each call clears the pending timer, so a save is cancelled by any later edit within 500 ms, whatever day or field that edit is for. The cancelled edit stays on the page (src/App.tsx:516-518), but the store keeps the old value. | set day 1's `von`, then within 500 ms set day 2's `bis`: only `saveDay(day 2, 'bis', ...)` runs | the delay is there to merge keystrokes in one field into one save; every field's last value is meant to be saved, which is what the optimistic page edit and the save indicator assume | not executed | Debounce.ScheduleShared, Debounce.SharedTimerLosesEdit | Debounce.ScheduleKeyed, Debounce.PerFieldTimersShowStore |

=== FILE: app.dfy ===
/**
 * The logic of the React front end: how a row and a difference are
 * classified, the weekly totals of the month table, the navigation between
 * the year list, a year and a month, and the handlers that edit a day, set
 * or clear its code, create or delete a year and import a backup, each
 * followed by a mirror into the backup.
 */
module App {
  import opened Wrappers
  import opened Records
  import opened TimeCalc
  import opened StatsEngine
  import opened Store
  import opened StoreProps
  import opened Sync

  // ---------------------------------------------------------------------------
  // getDiffClass / getRowClass

  datatype DiffClass = DiffPositive | DiffNegative | DiffNeutral

  /** `getDiffClass`: a difference beyond a hundredth of an hour either way is shown as such. */
  function GetDiffClass(diff: real): (c: DiffClass)
    ensures c == DiffPositive <==> diff > 0.01
    ensures c == DiffNegative <==> diff < -0.01
    ensures c == DiffNeutral <==> -0.01 <= diff <= 0.01
  {
    if diff > 0.01 then DiffPositive
    else if diff < -0.01 then DiffNegative
    else DiffNeutral
  }

  function Opposite(c: DiffClass): DiffClass {
    match c
    case DiffPositive => DiffNegative
    case DiffNegative => DiffPositive
    case DiffNeutral => DiffNeutral
  }

  /** The neutral band is symmetric: negating a difference swaps positive and negative. */
  lemma DiffClassSymmetric(diff: real)
    ensures GetDiffClass(-diff) == Opposite(GetDiffClass(diff))
  {
  }

  /** A day whose code was just set shows a neutral difference: eight hours planned, eight worked. */
  lemma CodedDayIsNeutral(s: Store, id: int, c: Code)
    requires id in s.days.rows
    ensures var r := SetDayCode(s, id, c).1.value;
      GetDiffClass(r.istStunden - r.sollStunden) == DiffNeutral
  {
  }

  datatype RowClass = Feiertag | Urlaub | Krank | Kindkrank | Weekend | Plain

  /** The row class that shows a code. */
  function CodeClass(c: Code): RowClass
    requires c != NoCode
  {
    match c
    case FT => Feiertag
    case U => Urlaub
    case K => Krank
    case KK => Kindkrank
  }

  /** `getRowClass`: a code takes precedence over the weekend shading. */
  function GetRowClass(d: Day): (r: RowClass)
    ensures d.code != NoCode ==> r == CodeClass(d.code)
    ensures d.code == NoCode ==> (r == Weekend <==> d.isWeekend) && (r == Plain <==> !d.isWeekend)
  {
    if d.code == FT then Feiertag
    else if d.code == U then Urlaub
    else if d.code == K then Krank
    else if d.code == KK then Kindkrank
    else if d.isWeekend then Weekend
    else Plain
  }

  /** The row class tells which code a day carries. */
  lemma RowClassShowsCode(a: Day, b: Day)
    requires a.code != NoCode && b.code != NoCode && GetRowClass(a) == GetRowClass(b)
    ensures a.code == b.code
  {
  }

  /** After `setDayCode` the row shows the code; after `clearDayCode` only the weekend shading. */
  lemma RowClassAfterCodeChange(s: Store, id: int, c: Code)
    requires id in s.days.rows
    ensures c != NoCode ==> GetRowClass(SetDayCode(s, id, c).1.value) == CodeClass(c)
    ensures var r := ClearDayCode(s, id).value.1;
      GetRowClass(r) == if s.days.rows[id].isWeekend then Weekend else Plain
  {
  }

  // ---------------------------------------------------------------------------
  // getWeeklyHours

  /** Worked hours of the days of ISO week `w`. */
  function WeekHours(days: seq<Day>, w: int): real {
    if days == [] then 0.0
    else WeekHours(days[..|days| - 1], w) + (if days[|days| - 1].isoWeek == w then days[|days| - 1].istStunden else 0.0)
  }

  /** Worked hours of all the days. */
  function TotalHours(days: seq<Day>): real {
    if days == [] then 0.0 else TotalHours(days[..|days| - 1]) + days[|days| - 1].istStunden
  }

  /** `getWeeklyHours`: one entry per ISO week that occurs, holding the week's worked hours. */
  method GetWeeklyHours(days: seq<Day>) returns (weeks: map<int, real>)
    ensures forall w :: w in weeks <==> exists i :: 0 <= i < |days| && days[i].isoWeek == w
    ensures forall w :: w in weeks ==> weeks[w] == WeekHours(days, w)
  {
    weeks := map[];
    for i := 0 to |days|
      invariant forall w :: w in weeks <==> exists j :: 0 <= j < i && days[j].isoWeek == w
      invariant forall w :: w in weeks ==> weeks[w] == WeekHours(days[..i], w)
      invariant forall w :: w !in weeks ==> WeekHours(days[..i], w) == 0.0
    {
      var d := days[i];
      assert days[..i + 1][..i] == days[..i];
      assert forall w :: WeekHours(days[..i + 1], w) == WeekHours(days[..i], w) + (if d.isoWeek == w then d.istStunden else 0.0);
      if d.isoWeek !in weeks || weeks[d.isoWeek] == 0.0 {
        weeks := weeks[d.isoWeek := 0.0];
      }
      weeks := weeks[d.isoWeek := weeks[d.isoWeek] + d.istStunden];
    }
    assert days[..|days|] == days;
  }

  /** The hours of the weeks `ws` added up. */
  function SumWeeks(days: seq<Day>, ws: seq<int>): real {
    if ws == [] then 0.0 else WeekHours(days, ws[0]) + SumWeeks(days, ws[1..])
  }

  /** One more day adds its hours to the sum over any list of distinct weeks that holds its week. */
  lemma {:induction false} SumWeeksStep(days: seq<Day>, d: Day, ws: seq<int>)
    requires forall i, j :: 0 <= i < j < |ws| ==> ws[i] != ws[j]
    ensures SumWeeks(days + [d], ws) == SumWeeks(days, ws) + (if d.isoWeek in ws then d.istStunden else 0.0)
  {
    if ws != [] {
      assert (days + [d])[..|days + [d]| - 1] == days;
      SumWeeksStep(days, d, ws[1..]);
      assert ws[0] !in ws[1..] by {
        forall i | 0 <= i < |ws[1..]|
          ensures ws[1..][i] != ws[0]
        {
          assert ws[1..][i] == ws[i + 1];
        }
      }
      assert d.isoWeek in ws <==> d.isoWeek == ws[0] || d.isoWeek in ws[1..];
    }
  }

  /** Summed over distinct weeks that cover every day, the weekly totals give the month's worked hours. */
  lemma {:induction false} WeeksAddUp(days: seq<Day>, ws: seq<int>)
    requires forall i, j :: 0 <= i < j < |ws| ==> ws[i] != ws[j]
    requires forall i :: 0 <= i < |days| ==> days[i].isoWeek in ws
    ensures SumWeeks(days, ws) == TotalHours(days)
  {
    if days == [] {
      SumWeeksEmpty(ws);
    } else {
      var init, d := days[..|days| - 1], days[|days| - 1];
      assert days == init + [d];
      WeeksAddUp(init, ws);
      SumWeeksStep(init, d, ws);
    }
  }

  lemma {:induction false} SumWeeksEmpty(ws: seq<int>)
    ensures SumWeeks([], ws) == 0.0
  {
    if ws != [] {
      SumWeeksEmpty(ws[1..]);
    }
  }

  /** The entries `getWeeklyHours` returns, in week order, add up to the month's worked hours. */
  lemma WeeklyHoursAddUp(days: seq<Day>, weeks: map<int, real>)
    requires forall w :: w in weeks <==> exists i :: 0 <= i < |days| && days[i].isoWeek == w
    requires forall w :: w in weeks ==> weeks[w] == WeekHours(days, w)
    ensures SumWeeks(days, KeyOrder(weeks.Keys)) == TotalHours(days)
  {
    var ws := KeyOrder(weeks.Keys);
    forall i | 0 <= i < |days|
      ensures days[i].isoWeek in ws
    {
      assert days[i].isoWeek in weeks;
    }
    WeeksAddUp(days, ws);
  }

  // ---------------------------------------------------------------------------
  // Navigation

  datatype View = YearsList | YearPage | MonthPage

  /** The view and the selected year and month row ids. */
  datatype Nav = Nav(view: View, selectedYear: Option<int>, selectedMonth: Option<int>)

  /** What each view needs: a year for the year page, a year and a month for the month page. */
  predicate NavOk(n: Nav) {
    && (n.view == YearPage ==> n.selectedYear.Some?)
    && (n.view == MonthPage ==> n.selectedYear.Some? && n.selectedMonth.Some?)
  }

  /** The start state: the year list, nothing selected. */
  function StartNav(): (n: Nav)
    ensures NavOk(n) && n.view == YearsList
  {
    Nav(YearsList, None, None)
  }

  /** `handleSelectYear`. */
  function SelectYear(n: Nav, yearId: int): (r: Nav)
    ensures r.view == YearPage && r.selectedYear == Some(yearId) && r.selectedMonth == n.selectedMonth
    ensures NavOk(r)
  {
    n.(view := YearPage, selectedYear := Some(yearId))
  }

  /** `handleSelectMonth`; the month list is only shown on a year page. */
  function SelectMonth(n: Nav, monthId: int): (r: Nav)
    ensures r.view == MonthPage && r.selectedMonth == Some(monthId) && r.selectedYear == n.selectedYear
    ensures n.view == YearPage && NavOk(n) ==> NavOk(r)
  {
    n.(view := MonthPage, selectedMonth := Some(monthId))
  }

  /** `handleBack`: month page to year page, year page to the list, the list stays. */
  function Back(n: Nav): (r: Nav)
    ensures n.view == MonthPage ==> r == Nav(YearPage, n.selectedYear, None)
    ensures n.view == YearPage ==> r == Nav(YearsList, None, n.selectedMonth)
    ensures n.view == YearsList ==> r == n
    ensures NavOk(n) ==> NavOk(r)
  {
    match n.view
    case MonthPage => n.(view := YearPage, selectedMonth := None)
    case YearPage => n.(view := YearsList, selectedYear := None)
    case YearsList => n
  }

  /** The breadcrumb's start link: the year list, nothing selected. */
  function CrumbHome(n: Nav): (r: Nav)
    ensures r == StartNav()
  {
    Nav(YearsList, None, None)
  }

  /** The breadcrumb's year link, shown while a year is selected. */
  function CrumbYear(n: Nav): (r: Nav)
    requires n.selectedYear.Some?
    ensures r == Nav(YearPage, n.selectedYear, None) && NavOk(r)
  {
    n.(view := YearPage, selectedMonth := None)
  }

  /** Back undoes a selection made on the page before. */
  lemma BackUndoesSelect(n: Nav, yearId: int, monthId: int)
    requires n.view == YearPage && NavOk(n) && n.selectedMonth.None?
    ensures Back(SelectMonth(n, monthId)) == n
    ensures Back(SelectYear(StartNav(), yearId)) == StartNav()
  {
  }

  /** From the month page, back goes where the breadcrumb's year link goes. */
  lemma BackIsCrumbYear(n: Nav)
    requires n.view == MonthPage && NavOk(n)
    ensures Back(n) == CrumbYear(n)
  {
  }

  // ---------------------------------------------------------------------------
  // The month page and its handlers

  /** A day as the month table holds it, with its id. */
  datatype Row = Row(id: int, day: Day)

  /** The month table's days and the stats shown above it. */
  datatype Page = Page(rows: seq<Row>, stats: Stats)

  function DaysOfRows(rows: seq<Row>): (ds: seq<Day>)
    ensures |ds| == |rows| && forall i :: 0 <= i < |rows| ==> ds[i] == rows[i].day
  {
    if rows == [] then [] else [rows[0].day] + DaysOfRows(rows[1..])
  }

  /** `prev.map((d) => (d.id === dayId ? updatedDay : d))`. */
  function Replace(rows: seq<Row>, id: int, d: Day): (r: seq<Row>)
    ensures |r| == |rows|
    ensures forall i :: 0 <= i < |rows| ==> r[i].id == rows[i].id
    ensures forall i :: 0 <= i < |rows| ==> r[i].day == if rows[i].id == id then d else rows[i].day
  {
    seq(|rows|, i requires 0 <= i < |rows| => if rows[i].id == id then Row(id, d) else rows[i])
  }

  /** The page after a day came back from the store: the row replaced, the stats recomputed. */
  function Refresh(p: Page, id: int, updated: Option<Day>): (r: Page)
    ensures updated.None? ==> r == p
    ensures updated.Some? ==> r.rows == Replace(p.rows, id, updated.value) && r.stats == CalculateStats(DaysOfRows(r.rows))
  {
    if updated.None? then p
    else
      var rows := Replace(p.rows, id, updated.value);
      Page(rows, CalculateStats(DaysOfRows(rows)))
  }

  /** The page shows the store: every row is the stored day under its id. */
  predicate Shows(p: Page, s: Store) {
    forall i :: 0 <= i < |p.rows| ==> p.rows[i].id in s.days.rows && p.rows[i].day == s.days.rows[p.rows[i].id]
  }

  /** The fields the month table edits in place. */
  datatype Field = Von | Bis | Von2 | Bis2 | Pause | Comment

  /** `{ ...d, [field]: value }`. */
  function SetField(d: Day, f: Field, v: string): (r: Day)
    ensures f == Von ==> r == d.(von := v)
    ensures f == Bis ==> r == d.(bis := v)
    ensures f == Von2 ==> r == d.(von2 := v)
    ensures f == Bis2 ==> r == d.(bis2 := v)
    ensures f == Pause ==> r == d.(pause := v)
    ensures f == Comment ==> r == d.(comment := v)
  {
    match f
    case Von => d.(von := v)
    case Bis => d.(bis := v)
    case Von2 => d.(von2 := v)
    case Bis2 => d.(bis2 := v)
    case Pause => d.(pause := v)
    case Comment => d.(comment := v)
  }

  /** `{ [field]: value }` as an update for `updateDay`. */
  function FieldUpdate(f: Field, v: string): DayUpdate {
    var none := DayUpdate(None, None, None, None, None, None, None, None, None);
    match f
    case Von => none.(von := Some(v))
    case Bis => none.(bis := Some(v))
    case Von2 => none.(von2 := Some(v))
    case Bis2 => none.(bis2 := Some(v))
    case Pause => none.(pause := Some(v))
    case Comment => none.(comment := Some(v))
  }

  /** The store saves the same field value the table shows: merge and optimistic edit agree. */
  lemma SaveMatchesOptimistic(d: Day, f: Field, v: string)
    ensures Merge(d, FieldUpdate(f, v)) == SetField(d, f, v)
  {
  }

  /** `handleInputChange`'s optimistic update: the named field of the rows with that id, nothing else. */
  function EditRows(p: Page, id: int, f: Field, v: string): (r: Page)
    ensures r.stats == p.stats && |r.rows| == |p.rows|
    ensures forall i :: 0 <= i < |p.rows| ==> r.rows[i].id == p.rows[i].id
    ensures forall i :: 0 <= i < |p.rows| ==>
      r.rows[i].day == if p.rows[i].id == id then SetField(p.rows[i].day, f, v) else p.rows[i].day
  {
    p.(rows := seq(|p.rows|, i requires 0 <= i < |p.rows| =>
      if p.rows[i].id == id then Row(id, SetField(p.rows[i].day, f, v)) else p.rows[i]))
  }

  /**
   * `saveDay(dayId, field, value)`: `updateDay` with the one field, the row
   * replaced by the stored day when there is one, then the mirror.
   */
  function SaveDay(s: Store, db: Option<SqlDb>, p: Page, id: int, f: Field, v: string): (r: (Store, Option<SqlDb>, Page))
    requires id in s.days.rows ==> WellTimed(SetField(s.days.rows[id], f, v))
    ensures r.1 == Mirror(r.0, db) && |r.2.rows| == |p.rows|
    ensures forall i :: 0 <= i < |p.rows| ==>
      r.2.rows[i].id == p.rows[i].id && (p.rows[i].id != id ==> r.2.rows[i].day == p.rows[i].day)
    ensures id !in s.days.rows ==> r.0 == s && r.2 == p
    ensures id in s.days.rows ==>
      && r.0 == s.(days := s.days.(rows := s.days.rows[id := UpdatedDay(s.days.rows[id], FieldUpdate(f, v))]))
      && (forall i :: 0 <= i < |p.rows| && p.rows[i].id == id ==> r.2.rows[i].day == r.0.days.rows[id])
  {
    var (s1, updated) :=
      if id in s.days.rows then
        SaveMatchesOptimistic(s.days.rows[id], f, v);
        UpdateDay(s, id, FieldUpdate(f, v))
      else UpdateDay(s, id, FieldUpdate(f, v));
    (s1, Mirror(s1, db), Refresh(p, id, updated))
  }

  /**
   * After an edit whose save runs, the page shows the store again, and the
   * backup holds it. A save the shared debounce timer cancels never runs;
   * the `Debounce` module covers that case.
   */
  lemma EditThenSaveShowsStore(s: Store, db: Option<SqlDb>, p: Page, id: int, f: Field, v: string)
    requires Shows(p, s) && UniqueYears(s) && db.Some? && db.value.Tables?
    requires id in s.days.rows ==> WellTimed(SetField(s.days.rows[id], f, v))
    ensures var (s1, db1, p1) := SaveDay(s, db, EditRows(p, id, f, v), id, f, v);
      Shows(p1, s1) && InSync(s1, db1)
  {
    var (s1, updated) := UpdateDay(s, id, FieldUpdate(f, v));
    var (_, db1, p1) := SaveDay(s, db, EditRows(p, id, f, v), id, f, v);
    forall i | 0 <= i < |p1.rows|
      ensures p1.rows[i].id in s1.days.rows && p1.rows[i].day == s1.days.rows[p1.rows[i].id]
    {
      assert p.rows[i].id in s.days.rows;
    }
    MirrorCopiesStore(s1, db.value.snap);
  }

  /** The code `CodeSelector` hands on: the empty choice clears, any other applies. */
  datatype CodeAction = ApplyCode(code: Code) | ClearCode

  /** `CodeSelector.handleChange`. */
  function CodeChoice(c: Code): (a: CodeAction)
    ensures a == ClearCode <==> c == NoCode
    ensures a.ApplyCode? ==> a.code == c
  {
    if c == NoCode then ClearCode else ApplyCode(c)
  }

  /** `handleCodeApply`: the empty code is ignored; otherwise `setDayCode`, the row, the mirror. */
  function CodeApply(s: Store, db: Option<SqlDb>, p: Page, id: int, c: Code): (r: (Store, Option<SqlDb>, Page))
    ensures c == NoCode ==> r == (s, db, p)
    ensures c != NoCode ==> r.1 == Mirror(r.0, db)
    ensures |r.2.rows| == |p.rows|
    ensures c != NoCode && id !in s.days.rows ==> r.0 == s && r.2 == p
    ensures c != NoCode && id in s.days.rows ==>
      r.0 == s.(days := s.days.(rows := s.days.rows[id := CodedDay(s.days.rows[id], c)]))
    ensures c != NoCode && id in s.days.rows ==>
      && id in r.0.days.rows
      && r.0.days.rows[id].code == c && r.0.days.rows[id].istStunden == r.0.days.rows[id].sollStunden == 8.0
      && (forall i :: 0 <= i < |p.rows| && p.rows[i].id == id ==> r.2.rows[i].day == r.0.days.rows[id])
  {
    if c == NoCode then (s, db, p)
    else
      var (s1, updated) := SetDayCode(s, id, c);
      (s1, Mirror(s1, db), Refresh(p, id, updated))
  }

  /**
   * `handleCodeClear`: `clearDayCode`, the row, the mirror. A missing day
   * makes `clearDayCode` throw, so the handler stops before any change.
   */
  function CodeClear(s: Store, db: Option<SqlDb>, p: Page, id: int): (r: Result<(Store, Option<SqlDb>, Page), StoreError>)
    ensures r.Failure? <==> id !in s.days.rows
    ensures r.Success? ==>
      r.value.0 == s.(days := s.days.(rows := s.days.rows[id := ClearedDay(s.days.rows[id])]))
    ensures r.Success? ==> var (s1, db1, p1) := r.value;
      && db1 == Mirror(s1, db) && |p1.rows| == |p.rows| && id in s1.days.rows
      && s1.days.rows[id].code == NoCode && s1.days.rows[id].istStunden == 0.0
      && (forall i :: 0 <= i < |p.rows| && p.rows[i].id == id ==> p1.rows[i].day == s1.days.rows[id])
  {
    var (s1, d) :- ClearDayCode(s, id);
    Success((s1, Mirror(s1, db), Refresh(p, id, Some(d))))
  }

  /** A choice in the code selector of row `id`. */
  function SelectCode(s: Store, db: Option<SqlDb>, p: Page, id: int, c: Code): Result<(Store, Option<SqlDb>, Page), StoreError> {
    match CodeChoice(c)
    case ClearCode => CodeClear(s, db, p, id)
    case ApplyCode(code) => Success(CodeApply(s, db, p, id, code))
  }

  /**
   * A code chosen in the selector is always applied (the empty-code guard of
   * `handleCodeApply` is never reached from it), and choosing the empty code
   * afterwards leaves the day with no code, no hours and the page showing it.
   */
  lemma SelectThenClear(s: Store, db: Option<SqlDb>, p: Page, id: int, c: Code)
    requires id in s.days.rows && c != NoCode
    ensures SelectCode(s, db, p, id, c) == Success(CodeApply(s, db, p, id, c))
    ensures var (s1, db1, p1) := CodeApply(s, db, p, id, c);
      var r := SelectCode(s1, db1, p1, id, NoCode);
      && r.Success?
      && r.value.0.days.rows[id].code == NoCode && r.value.0.days.rows[id].istStunden == 0.0
      && forall i :: 0 <= i < |p.rows| && p.rows[i].id == id ==> r.value.2.rows[i].day == r.value.0.days.rows[id]
  {
  }

  /** The code handlers keep the page showing the store and the backup holding it. */
  lemma CodeHandlersKeepSync(s: Store, db: Option<SqlDb>, p: Page, id: int, c: Code)
    requires Shows(p, s) && UniqueYears(s) && db.Some? && db.value.Tables?
    ensures var r := SelectCode(s, db, p, id, c);
      r.Success? ==> Shows(r.value.2, r.value.0) && InSync(r.value.0, r.value.1)
  {
    if c == NoCode {
      if id in s.days.rows {
        var (s1, d) := ClearDayCode(s, id).value;
        RefreshShows(s, p, id, s1, d);
        MirrorCopiesStore(s1, db.value.snap);
      }
    } else {
      var (s1, d) := SetDayCode(s, id, c);
      if d.Some? {
        RefreshShows(s, p, id, s1, d.value);
      }
      MirrorCopiesStore(s1, db.value.snap);
    }
  }

  /** Storing a day and putting it into the page keeps the page showing the store. */
  lemma RefreshShows(s: Store, p: Page, id: int, s1: Store, d: Day)
    requires Shows(p, s) && id in s.days.rows
    requires s1 == s.(days := s.days.(rows := s.days.rows[id := d]))
    ensures Shows(Refresh(p, id, Some(d)), s1)
  {
    var p1 := Refresh(p, id, Some(d));
    forall i | 0 <= i < |p1.rows|
      ensures p1.rows[i].id in s1.days.rows && p1.rows[i].day == s1.days.rows[p1.rows[i].id]
    {
      assert p.rows[i].id in s.days.rows;
    }
  }

  // ---------------------------------------------------------------------------
  // The year list's handlers

  /** `handleCreateYear`: `createYear`, then the mirror; a refused year is only reported. */
  function CreateYearAndSync(s: Store, db: Option<SqlDb>, year: int): (r: Result<(Store, Option<SqlDb>), StoreError>)
    ensures r.Failure? <==> YearTaken(s, year)
    ensures r.Success? ==> YearTaken(r.value.0, year) && r.value.1 == Mirror(r.value.0, db)
  {
    var (s1, id) :- CreateYear(s, year);
    assert s1.years.rows[id].year == year;
    Success((s1, Mirror(s1, db)))
  }

  /** `handleDeleteYear`: only after the user confirms, `deleteYear`, then the mirror. */
  function DeleteYearAndSync(s: Store, db: Option<SqlDb>, yearId: int, confirmed: bool): (r: (Store, Option<SqlDb>))
    ensures !confirmed ==> r == (s, db)
    ensures confirmed ==> && r.0.years.rows == s.years.rows - {yearId}
                          && (forall k :: k in r.0.months.rows ==> r.0.months.rows[k].yearId != yearId)
                          && (forall k :: k in r.0.days.rows ==> r.0.days.rows[k].yearId != yearId)
                          && r.1 == Mirror(r.0, db)
  {
    if !confirmed then (s, db)
    else
      var s1 := DeleteYear(s, yearId);
      (s1, Mirror(s1, db))
  }

  /** Both year handlers keep the store's invariants and, after a change, the backup in sync. */
  lemma YearHandlersKeepGood(s: Store, db: Option<SqlDb>, year: int, yearId: int, confirmed: bool)
    requires Good(s) && db.Some? && db.value.Tables?
    ensures var r := CreateYearAndSync(s, db, year);
      r.Success? ==> Good(r.value.0) && InSync(r.value.0, r.value.1)
    ensures var (s1, db1) := DeleteYearAndSync(s, db, yearId, confirmed);
      Good(s1) && (confirmed ==> InSync(s1, db1))
  {
    var r := CreateYearAndSync(s, db, year);
    if r.Success? {
      var (s1, id) := CreateYear(s, year).value;
      CreateYearKeepsGood(s, year, s1, id);
      MirrorCopiesStore(s1, db.value.snap);
    }
    DeleteYearKeepsGood(s, yearId);
    MirrorCopiesStore(DeleteYear(s, yearId), db.value.snap);
  }
}

=== FILE: calendar.dfy ===
/**
 * The proleptic Gregorian calendar as the browser's `Date` object applies it
 * (section 3.2.1 of ISO 8601:2004), and the ISO week number computed by
 * `getISOWeek` (the week date of section 4.1.4 of ISO 8601:2004).
 *
 * Days are counted from 0001-01-01 (day number 0), which was a Monday.
 */
module Calendar {

  /** The full year `new Date(y, m, d)` actually uses: 0..99 denote 1900..1999. */
  function JsYear(y: int): int {
    if 0 <= y <= 99 then 1900 + y else y
  }

  predicate IsLeap(y: int) {
    y % 4 == 0 && (y % 100 != 0 || y % 400 == 0)
  }

  function DaysInYear(y: int): int {
    if IsLeap(y) then 366 else 365
  }

  /** Number of days of month `m` (1..12) of year `y`. */
  function DaysInMonth(y: int, m: int): (n: int)
    requires 1 <= m <= 12
    ensures 28 <= n <= 31
    ensures n == 29 <==> m == 2 && IsLeap(y)
    ensures n == 28 <==> m == 2 && !IsLeap(y)
    ensures n == 30 <==> m in {4, 6, 9, 11}
  {
    if m == 2 then (if IsLeap(y) then 29 else 28)
    else if m == 4 || m == 6 || m == 9 || m == 11 then 30
    else 31
  }

  predicate ValidDate(y: int, m: int, d: int) {
    1 <= m <= 12 && 1 <= d <= DaysInMonth(y, m)
  }

  /** Days of year `y` that precede the first of month `m`; month 13 stands for the year's end. */
  function DaysBeforeMonth(y: int, m: int): (n: int)
    requires 1 <= m <= 13
    ensures 0 <= n
  {
    if m == 1 then 0 else DaysBeforeMonth(y, m - 1) + DaysInMonth(y, m - 1)
  }

  /** Day number of January 1st of year `y`: the lengths of the years before it, from year 1 on. */
  function DaysBeforeYear(y: int): int
    decreases if y >= 1 then y - 1 else 1 - y
  {
    if y == 1 then 0
    else if y > 1 then DaysBeforeYear(y - 1) + DaysInYear(y - 1)
    else DaysBeforeYear(y + 1) - DaysInYear(y)
  }

  function DayNumber(y: int, m: int, d: int): int
    requires 1 <= m <= 12
  {
    DaysBeforeYear(y) + DaysBeforeMonth(y, m) + d - 1
  }

  /** Day of the week as `Date.getDay` reports it: 0 is Sunday, 6 is Saturday. */
  function Weekday(y: int, m: int, d: int): (w: int)
    requires 1 <= m <= 12
    ensures 0 <= w < 7
  {
    (DayNumber(y, m, d) + 1) % 7
  }

  /** `getUTCDay() || 7`: Monday is 1, Sunday is 7. */
  function IsoWeekday(y: int, m: int, d: int): (w: int)
    requires 1 <= m <= 12
    ensures 1 <= w <= 7
    ensures w % 7 == Weekday(y, m, d)
  {
    var w := Weekday(y, m, d);
    if w == 0 then 7 else w
  }

  /** The calendar date that follows a valid date. */
  function NextDate(y: int, m: int, d: int): (r: (int, int, int))
    requires ValidDate(y, m, d)
    ensures ValidDate(r.0, r.1, r.2)
  {
    if d < DaysInMonth(y, m) then (y, m, d + 1)
    else if m < 12 then (y, m + 1, 1)
    else (y + 1, 1, 1)
  }

  /**
   * The ISO week number of a date, as `getISOWeek` computes it for the date
   * `new Date(y, m - 1, d)` where `y` is already the full year: move to the
   * Thursday of the Monday-based week, and count the weeks from January 1st
   * of the Thursday's year, `ceil((days + 1) / 7)`. The second `Date.UTC`
   * call maps that year through `JsYear` once more.
   */
  function IsoWeek(y: int, m: int, d: int): int
    requires ValidDate(y, m, d)
  {
    var thursday := DayNumber(y, m, d) + 4 - IsoWeekday(y, m, d);
    var ty := ThursdayYear(y, thursday);
    (thursday - DaysBeforeYear(JsYear(ty)) + 7) / 7
  }

  /** The year holding day number `t`, for a `t` within a few days of year `y`. */
  function ThursdayYear(y: int, t: int): int {
    if t < DaysBeforeYear(y) then y - 1
    else if t >= DaysBeforeYear(y + 1) then y + 1
    else y
  }

  // ---------------------------------------------------------------------------
  // Lemmas: the calendar is internally consistent.

  lemma DivStep4(p: int)
    ensures (p + 1) / 4 - p / 4 == (if (p + 1) % 4 == 0 then 1 else 0)
  {
  }

  lemma DivStep100(p: int)
    ensures (p + 1) / 100 - p / 100 == (if (p + 1) % 100 == 0 then 1 else 0)
  {
  }

  lemma DivStep400(p: int)
    ensures (p + 1) / 400 - p / 400 == (if (p + 1) % 400 == 0 then 1 else 0)
  {
  }

  lemma ModDivides(y: int)
    ensures y % 400 == 0 ==> y % 100 == 0
    ensures y % 100 == 0 ==> y % 4 == 0
  {
  }

  lemma ModSucc(a: int)
    ensures (a + 1) % 7 == (a % 7 + 1) % 7
  {
  }

  /** January 1st of `y + 1` follows January 1st of `y` by the length of year `y`. */
  lemma YearLength(y: int)
    ensures DaysBeforeYear(y + 1) - DaysBeforeYear(y) == DaysInYear(y)
  {
  }

  /** The leap-year count before `y`, in closed form. */
  function ClosedDaysBeforeYear(y: int): int {
    var p := y - 1;
    365 * p + p / 4 - p / 100 + p / 400
  }

  lemma ClosedYearLength(y: int)
    ensures ClosedDaysBeforeYear(y + 1) - ClosedDaysBeforeYear(y) == DaysInYear(y)
  {
    DivStep4(y - 1);
    DivStep100(y - 1);
    DivStep400(y - 1);
    ModDivides(y);
  }

  /**
   * The usual closed form of the day count: 365 days a year plus one for
   * each leap year before `y`.
   */
  lemma {:induction false} DaysBeforeYearFormula(y: int)
    ensures DaysBeforeYear(y) == ClosedDaysBeforeYear(y)
    decreases if y >= 1 then y - 1 else 1 - y
  {
    if y > 1 {
      DaysBeforeYearFormula(y - 1);
      ClosedYearLength(y - 1);
    } else if y < 1 {
      DaysBeforeYearFormula(y + 1);
      ClosedYearLength(y);
    }
  }

  /** The cumulative month table of the Gregorian calendar, one day later from March on in leap years. */
  lemma {:induction false} DaysBeforeMonthTable(y: int, m: int)
    requires 1 <= m <= 13
    ensures DaysBeforeMonth(y, m) ==
      [0, 31, 59, 90, 120, 151, 181, 212, 243, 273, 304, 334, 365][m - 1] + (if IsLeap(y) && m > 2 then 1 else 0)
    decreases m
  {
    if m > 1 {
      DaysBeforeMonthTable(y, m - 1);
    }
  }

  /** The twelve month lengths add up to the year length. */
  lemma MonthsFillYear(y: int, m: int)
    requires 1 <= m <= 12
    ensures DaysBeforeMonth(y, m + 1) == DaysBeforeMonth(y, m) + DaysInMonth(y, m)
    ensures DaysBeforeMonth(y, m + 1) <= DaysBeforeMonth(y, 13) == DaysInYear(y)
  {
    DaysBeforeMonthTable(y, m + 1);
    DaysBeforeMonthTable(y, 13);
  }

  /** Consecutive dates have consecutive day numbers, across month and year ends. */
  lemma NextDateIsNextDay(y: int, m: int, d: int)
    requires ValidDate(y, m, d)
    ensures var (y', m', d') := NextDate(y, m, d);
      DayNumber(y', m', d') == DayNumber(y, m, d) + 1
  {
    MonthsFillYear(y, m);
    if d == DaysInMonth(y, m) && m == 12 {
      YearLength(y);
    }
  }

  /** The weekday advances by one from each date to the next. */
  lemma NextDateWeekday(y: int, m: int, d: int)
    requires ValidDate(y, m, d)
    ensures var (y', m', d') := NextDate(y, m, d);
      Weekday(y', m', d') == (Weekday(y, m, d) + 1) % 7
  {
    NextDateIsNextDay(y, m, d);
    ModSucc(DayNumber(y, m, d) + 1);
  }

  /** A date lies inside its year. */
  lemma DayNumberInYear(y: int, m: int, d: int)
    requires ValidDate(y, m, d)
    ensures DaysBeforeYear(y) <= DayNumber(y, m, d) < DaysBeforeYear(y + 1)
  {
    MonthsFillYear(y, m);
    YearLength(y);
  }

  /** The Thursday of a date's week lies in the year `ThursdayYear` names. */
  lemma ThursdayYearBounds(y: int, t: int)
    requires DaysBeforeYear(y) - 3 <= t < DaysBeforeYear(y + 1) + 3
    ensures var ty := ThursdayYear(y, t);
      y - 1 <= ty <= y + 1 && DaysBeforeYear(ty) <= t < DaysBeforeYear(ty + 1)
  {
    YearLength(y - 1);
    YearLength(y);
    YearLength(y + 1);
  }

  /**
   * Week numbers run from 1 to 53 (section 4.1.4 of ISO 8601:2004), except
   * where the second `Date.UTC` call reinterprets a week-year 0..99.
   */
  lemma IsoWeekRange(y: int, m: int, d: int)
    requires ValidDate(y, m, d)
    requires y > 100 || y < -1
    ensures 1 <= IsoWeek(y, m, d) <= 53
  {
    var n := DayNumber(y, m, d);
    DayNumberInYear(y, m, d);
    var t := n + 4 - IsoWeekday(y, m, d);
    ThursdayYearBounds(y, t);
    var ty := ThursdayYear(y, t);
    YearLength(ty);
    assert JsYear(ty) == ty;
  }

  /** January 4th always lies in week 1: week 1 is the week holding the year's first Thursday. */
  lemma January4thInWeekOne(y: int)
    requires y > 100 || y < -1
    ensures ValidDate(y, 1, 4) && IsoWeek(y, 1, 4) == 1
  {
    var n := DayNumber(y, 1, 4);
    assert n == DaysBeforeYear(y) + 3;
    var t := n + 4 - IsoWeekday(y, 1, 4);
    YearLength(y);
    assert DaysBeforeYear(y) <= t < DaysBeforeYear(y + 1);
    assert ThursdayYear(y, t) == y;
    assert JsYear(y) == y;
  }

  /** Years are disjoint: a day number lies in at most one of nearby years. */
  lemma YearOfDayUnique(a: int, b: int, t: int)
    requires a <= b <= a + 3
    requires DaysBeforeYear(a) <= t < DaysBeforeYear(a + 1)
    requires DaysBeforeYear(b) <= t < DaysBeforeYear(b + 1)
    ensures a == b
  {
    YearLength(a + 1);
    YearLength(a + 2);
  }

  /** Consecutive days that are not a Monday and its Sunday share the Thursday of their week. */
  lemma SameThursday(y: int, m: int, d: int)
    requires ValidDate(y, m, d)
    requires var (y', m', d') := NextDate(y, m, d); IsoWeekday(y', m', d') != 1
    ensures var (y', m', d') := NextDate(y, m, d);
      DayNumber(y', m', d') + 4 - IsoWeekday(y', m', d') == DayNumber(y, m, d) + 4 - IsoWeekday(y, m, d)
  {
    NextDateIsNextDay(y, m, d);
    NextDateWeekday(y, m, d);
  }

  /** `ThursdayYear` names the one nearby year that holds the day. */
  lemma ThursdayYearIsYearOf(y: int, t: int, ty: int)
    requires DaysBeforeYear(y) - 3 <= t < DaysBeforeYear(y + 1) + 3
    requires y - 2 <= ty <= y + 2
    requires DaysBeforeYear(ty) <= t < DaysBeforeYear(ty + 1)
    ensures ThursdayYear(y, t) == ty
  {
    ThursdayYearBounds(y, t);
    var a := ThursdayYear(y, t);
    if a <= ty {
      YearOfDayUnique(a, ty, t);
    } else {
      YearOfDayUnique(ty, a, t);
    }
  }

  /** The ISO week number changes only when a Monday begins. */
  lemma WeekChangesOnlyOnMonday(y: int, m: int, d: int)
    requires ValidDate(y, m, d)
    requires var (y', m', d') := NextDate(y, m, d); IsoWeekday(y', m', d') != 1
    ensures var (y', m', d') := NextDate(y, m, d); IsoWeek(y', m', d') == IsoWeek(y, m, d)
  {
    var (y', m', d') := NextDate(y, m, d);
    SameThursday(y, m, d);
    var t := DayNumber(y, m, d) + 4 - IsoWeekday(y, m, d);
    DayNumberInYear(y, m, d);
    DayNumberInYear(y', m', d');
    ThursdayYearBounds(y, t);
    var ty := ThursdayYear(y, t);
    assert y' == y || y' == y + 1;
    ThursdayYearIsYearOf(y', t, ty);
  }
}

=== FILE: debounce.dfy ===
/**
 * The month table's delayed save. `useDebounce` keeps one timer for every
 * call of the function it returns, and the month table asks for that
 * function once, so an edit that comes within the delay of the previous one
 * cancels the previous save, whichever day or field it was for. Time is not
 * modelled: the edits of one list all arrive within the delay of each other,
 * and the saves still pending afterwards then run one after the other.
 */
module Debounce {
  import opened Wrappers
  import opened Records
  import opened TimeCalc
  import opened Store
  import opened Sync
  import opened App

  /** One call `debouncedSave(dayId, field, value)`. */
  datatype Save = Save(id: int, f: Field, v: string)

  /** How many timers the delayed save keeps. */
  datatype Timers =
    | Shared    // one for the whole table, as `useDebounce` is used
    | PerField  // one for each field of each day

  /** Whether two saves are for the same field of the same day. */
  predicate SameSlot(x: Save, y: Save) {
    x.id == y.id && x.f == y.f
  }

  /** The single timer: scheduling a save cancels every save that was pending. */
  function ScheduleShared(pending: seq<Save>, x: Save): (r: seq<Save>)
    ensures x in r && |r| == 1
    ensures forall y :: y in pending && y != x ==> y !in r
  {
    [x]
  }

  /** One timer per slot: a new save replaces only the pending save of its own slot. */
  function ScheduleKeyed(pending: seq<Save>, x: Save): (r: seq<Save>)
    ensures x in r
    ensures forall y :: y in pending && !SameSlot(y, x) ==> y in r
    ensures forall y :: y in r ==> y == x || (y in pending && !SameSlot(y, x))
  {
    if pending == [] then [x]
    else if SameSlot(pending[0], x) then ScheduleKeyed(pending[1..], x)
    else [pending[0]] + ScheduleKeyed(pending[1..], x)
  }

  function Schedule(t: Timers, pending: seq<Save>, x: Save): seq<Save> {
    match t
    case Shared => ScheduleShared(pending, x)
    case PerField => ScheduleKeyed(pending, x)
  }

  /** `handleInputChange` for each edit in turn: the optimistic row edit, then the save scheduled. */
  function EditAll(t: Timers, p: Page, pending: seq<Save>, es: seq<Save>): (r: (Page, seq<Save>))
    ensures r.0.stats == p.stats && |r.0.rows| == |p.rows|
    ensures forall i :: 0 <= i < |p.rows| ==> r.0.rows[i].id == p.rows[i].id
    ensures forall y :: y in r.1 ==> y in pending || y in es
    decreases |es|
  {
    if es == [] then (p, pending)
    else
      var x := es[0];
      EditAll(t, EditRows(p, x.id, x.f, x.v), Schedule(t, pending, x), es[1..])
  }

  /** A value the save can store: a time field takes a blank or `HH:MM`, the comment anything. */
  predicate Storable(x: Save) {
    x.f == Comment || IsTimeField(x.v)
  }

  predicate AllWellTimed(s: Store) {
    forall k :: k in s.days.rows ==> WellTimed(s.days.rows[k])
  }

  lemma StorableStaysTimed(d: Day, x: Save)
    requires WellTimed(d) && Storable(x)
    ensures WellTimed(SetField(d, x.f, x.v))
  {
  }

  /** A save keeps every stored day's times well formed. */
  lemma SaveKeepsTimed(s: Store, db: Option<SqlDb>, p: Page, x: Save)
    requires AllWellTimed(s) && Storable(x)
    ensures x.id in s.days.rows ==> WellTimed(SetField(s.days.rows[x.id], x.f, x.v))
    ensures AllWellTimed(SaveDay(s, db, p, x.id, x.f, x.v).0)
  {
    if x.id in s.days.rows {
      var d := s.days.rows[x.id];
      StorableStaysTimed(d, x);
      SaveMatchesOptimistic(d, x.f, x.v);
    }
  }

  /** The saves still pending once the edits stop, run one after the other. */
  function RunSaves(s: Store, db: Option<SqlDb>, p: Page, pending: seq<Save>): (r: (Store, Option<SqlDb>, Page))
    requires AllWellTimed(s) && forall x :: x in pending ==> Storable(x)
    ensures AllWellTimed(r.0) && |r.2.rows| == |p.rows|
    ensures forall i :: 0 <= i < |p.rows| ==> r.2.rows[i].id == p.rows[i].id
    // a day no pending save is for keeps its stored row and its page row
    ensures forall k :: k in s.days.rows && k !in PendingIds(pending) ==> k in r.0.days.rows && r.0.days.rows[k] == s.days.rows[k]
    ensures forall i :: 0 <= i < |p.rows| && p.rows[i].id !in PendingIds(pending) ==> r.2.rows[i].day == p.rows[i].day
    decreases |pending|
  {
    if pending == [] then (s, db, p)
    else
      var x := pending[0];
      SaveKeepsTimed(s, db, p, x);
      var (s1, db1, p1) := SaveDay(s, db, p, x.id, x.f, x.v);
      RunSaves(s1, db1, p1, pending[1..])
  }

  /** The days some pending save is for. */
  function PendingIds(pending: seq<Save>): (ids: set<int>)
    ensures forall k :: k in ids <==> exists x :: x in pending && x.id == k
  {
    set x | x in pending :: x.id
  }

  /** Every row is a stored day, and a row whose day has no save pending shows it as stored. */
  predicate ShowsBut(p: Page, s: Store, pending: seq<Save>) {
    forall i :: 0 <= i < |p.rows| ==>
      && p.rows[i].id in s.days.rows
      && (p.rows[i].id !in PendingIds(pending) ==> p.rows[i].day == s.days.rows[p.rows[i].id])
  }

  /** With a timer per slot, an edit keeps the page showing the store except for days with a pending save. */
  lemma {:induction false} EditsKeepShowsBut(s: Store, p: Page, pending: seq<Save>, es: seq<Save>)
    requires ShowsBut(p, s, pending)
    ensures ShowsBut(EditAll(PerField, p, pending, es).0, s, EditAll(PerField, p, pending, es).1)
    decreases |es|
  {
    if es != [] {
      var x := es[0];
      var p1 := EditRows(p, x.id, x.f, x.v);
      var pend1 := ScheduleKeyed(pending, x);
      forall i | 0 <= i < |p1.rows|
        ensures p1.rows[i].id in s.days.rows
        ensures p1.rows[i].id !in PendingIds(pend1) ==> p1.rows[i].day == s.days.rows[p1.rows[i].id]
      {
        if p1.rows[i].id !in PendingIds(pend1) {
          assert p.rows[i].id != x.id;
          forall y | y in pending
            ensures y.id != p.rows[i].id
          {
            if !SameSlot(y, x) {
              assert y in pend1;
            }
          }
        }
      }
      EditsKeepShowsBut(s, p1, pend1, es[1..]);
    }
  }

  /** Running the first pending save keeps the invariant for the saves after it. */
  lemma SaveKeepsShowsBut(s: Store, db: Option<SqlDb>, p: Page, pending: seq<Save>)
    requires pending != [] && ShowsBut(p, s, pending)
    requires AllWellTimed(s) && Storable(pending[0])
    ensures var x := pending[0];
      x.id in s.days.rows ==> WellTimed(SetField(s.days.rows[x.id], x.f, x.v))
    ensures var x := pending[0];
      var r := SaveDay(s, db, p, x.id, x.f, x.v);
      ShowsBut(r.2, r.0, pending[1..])
  {
    var x := pending[0];
    SaveKeepsTimed(s, db, p, x);
    var r := SaveDay(s, db, p, x.id, x.f, x.v);
    forall i | 0 <= i < |r.2.rows|
      ensures r.2.rows[i].id in r.0.days.rows
      ensures r.2.rows[i].id !in PendingIds(pending[1..]) ==> r.2.rows[i].day == r.0.days.rows[r.2.rows[i].id]
    {
      assert p.rows[i].id in s.days.rows;
      if p.rows[i].id != x.id && p.rows[i].id !in PendingIds(pending[1..]) {
        forall y | y in pending
          ensures y.id != p.rows[i].id
        {
          if y != x {
            assert y in pending[1..];
          }
        }
      }
    }
  }

  /** Once every pending save has run, a page that showed the store but for pending days shows it. */
  lemma {:induction false} SavesRestoreShows(s: Store, db: Option<SqlDb>, p: Page, pending: seq<Save>)
    requires AllWellTimed(s) && forall x :: x in pending ==> Storable(x)
    requires ShowsBut(p, s, pending)
    ensures var r := RunSaves(s, db, p, pending); Shows(r.2, r.0)
    decreases |pending|
  {
    if pending != [] {
      var x := pending[0];
      SaveKeepsShowsBut(s, db, p, pending);
      var (s1, db1, p1) := SaveDay(s, db, p, x.id, x.f, x.v);
      SaveKeepsTimed(s, db, p, x);
      SavesRestoreShows(s1, db1, p1, pending[1..]);
    }
  }

  /**
   * With one timer for each field of each day, any burst of edits to a page
   * that showed the store ends, once the saves have run, with the page
   * showing the store again: no edit is lost.
   */
  lemma PerFieldTimersShowStore(s: Store, db: Option<SqlDb>, p: Page, es: seq<Save>)
    requires Shows(p, s) && AllWellTimed(s)
    requires forall x :: x in es ==> Storable(x)
    ensures var (p1, pending) := EditAll(PerField, p, [], es);
      var r := RunSaves(s, db, p1, pending);
      Shows(r.2, r.0)
  {
    EditsKeepShowsBut(s, p, [], es);
    var (p1, pending) := EditAll(PerField, p, [], es);
    SavesRestoreShows(s, db, p1, pending);
  }

  /**
   * With the one shared timer, editing a field of one day and then, within
   * the delay, any field of another day saves only the second edit: the
   * first day keeps the old row in the store, while its page row shows the
   * edit, so the page no longer shows the store.
   */
  lemma SharedTimerLosesEdit(s: Store, db: Option<SqlDb>, p: Page, i: int, a: Save, b: Save)
    requires Shows(p, s) && AllWellTimed(s) && Storable(a) && Storable(b)
    requires 0 <= i < |p.rows| && p.rows[i].id == a.id && b.id != a.id
    requires SetField(s.days.rows[a.id], a.f, a.v) != s.days.rows[a.id]
    ensures var (p1, pending) := EditAll(Shared, p, [], [a, b]);
      var r := RunSaves(s, db, p1, pending);
      && pending == [b]
      && a.id in r.0.days.rows && r.0.days.rows[a.id] == s.days.rows[a.id]
      && r.2.rows[i].day == SetField(s.days.rows[a.id], a.f, a.v)
      && !Shows(r.2, r.0)
  {
    var p1 := EditRows(p, a.id, a.f, a.v);
    var p2 := EditRows(p1, b.id, b.f, b.v);
    assert [a, b][1..] == [b];
    assert EditAll(Shared, p, [], [a, b]) == EditAll(Shared, p1, [a], [b]) == (p2, [b]);
    assert p2.rows[i].day == SetField(s.days.rows[a.id], a.f, a.v);
    var r := RunSaves(s, db, p2, [b]);
    assert a.id !in PendingIds([b]);
    assert r.2.rows[i].id == a.id;
  }
}

=== FILE: queries.dfy ===
/**
 * The read side of the store: the index queries `where(field).equals(id)`
 * behind `getMonthStats` and `getYearStats`, and the year view's total of
 * its months' stats, which comes out equal to the year's own stats.
 */
module Queries {
  import opened Records
  import opened StatsEngine
  import opened Store

  /** The rows of a table under the keys `ks`, in that order. */
  function RowsAt<T>(m: map<int, T>, ks: seq<int>): (r: seq<T>)
    requires forall i :: 0 <= i < |ks| ==> ks[i] in m
    ensures |r| == |ks| && forall i :: 0 <= i < |ks| ==> r[i] == m[ks[i]]
  {
    seq(|ks|, i requires 0 <= i < |ks| => m[ks[i]])
  }

  predicate Distinct(ks: seq<int>) {
    forall i, j :: 0 <= i < j < |ks| ==> ks[i] != ks[j]
  }

  /** Keys of the days that belong to year row `yearId`. */
  function YearDayKeys(s: Store, yearId: int): set<int> {
    set k | k in s.days.rows && s.days.rows[k].yearId == yearId
  }

  /** `days.where('yearId').equals(yearId).toArray()`: the year's days in key order. */
  function YearDays(s: Store, yearId: int): seq<Day> {
    var ks := KeyOrder(YearDayKeys(s, yearId));
    assert forall i :: 0 <= i < |ks| ==> ks[i] in ks;
    RowsAt(s.days.rows, ks)
  }

  /** `days.where('monthId').equals(monthId).toArray()`: the month's days in key order. */
  function MonthDays(s: Store, monthId: int): seq<Day> {
    var ks := KeyOrder(DaysOf(s, monthId));
    assert forall i :: 0 <= i < |ks| ==> ks[i] in ks;
    RowsAt(s.days.rows, ks)
  }

  /** `getYearStats(yearId)`. */
  function GetYearStats(s: Store, yearId: int): Stats {
    CalculateStats(YearDays(s, yearId))
  }

  /** `getMonthStats(monthId)`. */
  function GetMonthStats(s: Store, monthId: int): Stats {
    CalculateStats(MonthDays(s, monthId))
  }

  /** The day lists of the months `mks`. */
  function MonthDayLists(s: Store, mks: seq<int>): (r: seq<seq<Day>>)
    ensures |r| == |mks| && forall i :: 0 <= i < |mks| ==> r[i] == MonthDays(s, mks[i])
  {
    if mks == [] then [] else [MonthDays(s, mks[0])] + MonthDayLists(s, mks[1..])
  }

  /** The stats `getMonthsForYear` attaches to the months `mks`. */
  function MonthStatsList(s: Store, mks: seq<int>): (r: seq<Stats>)
    ensures |r| == |mks| && forall i :: 0 <= i < |mks| ==> r[i] == GetMonthStats(s, mks[i])
  {
    if mks == [] then [] else [GetMonthStats(s, mks[0])] + MonthStatsList(s, mks[1..])
  }

  /** The year view's stats, summed over its months in the order `getMonthsForYear` sorts them into. */
  function YearViewStats(s: Store, mks: seq<int>): YearView {
    AggregateYearStats(MonthStatsList(s, mks))
  }

  /** The keys of the days of the months `mks`, month by month. */
  function FlatKeys(s: Store, mks: seq<int>): (r: seq<int>)
    ensures forall k :: k in r <==> k in s.days.rows && s.days.rows[k].monthId in mks
  {
    if mks == [] then [] else KeyOrder(DaysOf(s, mks[0])) + FlatKeys(s, mks[1..])
  }

  // ---------------------------------------------------------------------------
  // Reordering

  /** In a sequence without repeats every element occurs once. */
  lemma {:induction false} DistinctCount(ks: seq<int>, x: int)
    requires Distinct(ks)
    ensures multiset(ks)[x] == if x in ks then 1 else 0
  {
    if ks != [] {
      assert ks == [ks[0]] + ks[1..];
      assert Distinct(ks[1..]) by {
        forall i, j | 0 <= i < j < |ks[1..]|
          ensures ks[1..][i] != ks[1..][j]
        {
          assert ks[1..][i] == ks[i + 1] && ks[1..][j] == ks[j + 1];
        }
      }
      DistinctCount(ks[1..], x);
      assert ks[0] !in ks[1..] by {
        forall i | 0 <= i < |ks[1..]|
          ensures ks[1..][i] != ks[0]
        {
          assert ks[1..][i] == ks[i + 1];
        }
      }
      assert x in ks <==> x == ks[0] || x in ks[1..];
    }
  }

  /** Two sequences without repeats and with the same elements are reorderings of each other. */
  lemma SameKeysSameMultiset(a: seq<int>, b: seq<int>)
    requires Distinct(a) && Distinct(b)
    requires forall k :: k in a <==> k in b
    ensures multiset(a) == multiset(b)
  {
    forall x
      ensures multiset(a)[x] == multiset(b)[x]
    {
      DistinctCount(a, x);
      DistinctCount(b, x);
    }
  }

  lemma RowsAtConcat<T>(m: map<int, T>, a: seq<int>, b: seq<int>)
    requires forall i :: 0 <= i < |a| ==> a[i] in m
    requires forall i :: 0 <= i < |b| ==> b[i] in m
    ensures RowsAt(m, a + b) == RowsAt(m, a) + RowsAt(m, b)
  {
  }

  /** Taking out the element at `j` takes one copy of it out of the multiset. */
  lemma MultisetSplit<T>(s: seq<T>, j: int)
    requires 0 <= j < |s|
    ensures multiset(s) == multiset(s[..j] + s[j + 1..]) + multiset{s[j]}
  {
    assert s == s[..j] + [s[j]] + s[j + 1..];
  }

  /** Putting the same element back in at the head of one and at `j` of the other. */
  lemma PermCons<T>(a: seq<T>, b: seq<T>, j: int)
    requires 0 < |a| && 0 <= j < |b| && b[j] == a[0]
    requires multiset(a[1..]) == multiset(b[..j] + b[j + 1..])
    ensures multiset(a) == multiset(b)
  {
    MultisetSplit(a, 0);
    MultisetSplit(b, j);
    assert a[..0] + a[1..] == a[1..];
  }

  /** Reordering the keys reorders the rows. */
  lemma {:induction false} RowsAtPerm<T>(m: map<int, T>, a: seq<int>, b: seq<int>)
    requires forall i :: 0 <= i < |a| ==> a[i] in m
    requires forall i :: 0 <= i < |b| ==> b[i] in m
    requires multiset(a) == multiset(b)
    ensures multiset(RowsAt(m, a)) == multiset(RowsAt(m, b))
    decreases |a|
  {
    if a == [] {
      assert |b| == |multiset(b)| == 0;
    } else {
      assert a[0] in multiset(b);
      var j :| 0 <= j < |b| && b[j] == a[0];
      var b' := b[..j] + b[j + 1..];
      MultisetRemove(a, b, j);
      RowsAtPerm(m, a[1..], b');
      var ra, rb := RowsAt(m, a), RowsAt(m, b);
      assert ra[1..] == RowsAt(m, a[1..]);
      assert rb[..j] + rb[j + 1..] == RowsAt(m, b');
      PermCons(ra, rb, j);
    }
  }

  /** Joining two sequences without repeats and without common elements gives one without repeats. */
  lemma DistinctConcat(a: seq<int>, b: seq<int>)
    requires Distinct(a) && Distinct(b)
    requires forall k :: k in a ==> k !in b
    ensures Distinct(a + b)
  {
    forall i, j | 0 <= i < j < |a + b|
      ensures (a + b)[i] != (a + b)[j]
    {
      if j < |a| {
        assert (a + b)[i] == a[i] && (a + b)[j] == a[j];
      } else if i >= |a| {
        assert (a + b)[i] == b[i - |a|] && (a + b)[j] == b[j - |a|];
      } else {
        assert (a + b)[i] in a && (a + b)[j] in b;
      }
    }
  }

  /** Distinct months have disjoint day keys, so the day keys of distinct months have no repeats. */
  lemma {:induction false} FlatKeysDistinct(s: Store, mks: seq<int>)
    requires Distinct(mks)
    ensures Distinct(FlatKeys(s, mks))
  {
    if mks != [] {
      assert Distinct(mks[1..]) by {
        forall i, j | 0 <= i < j < |mks[1..]|
          ensures mks[1..][i] != mks[1..][j]
        {
          assert mks[1..][i] == mks[i + 1] && mks[1..][j] == mks[j + 1];
        }
      }
      FlatKeysDistinct(s, mks[1..]);
      var first := KeyOrder(DaysOf(s, mks[0]));
      assert mks[0] !in mks[1..] by {
        forall i | 0 <= i < |mks[1..]|
          ensures mks[1..][i] != mks[0]
        {
          assert mks[1..][i] == mks[i + 1];
        }
      }
      DistinctConcat(first, FlatKeys(s, mks[1..]));
    }
  }

  /** The days of the months, list after list, are the rows under the months' day keys. */
  lemma {:induction false} FlattenRows(s: Store, mks: seq<int>)
    ensures Flatten(MonthDayLists(s, mks)) == RowsAt(s.days.rows, FlatKeys(s, mks))
  {
    if mks != [] {
      var lists := MonthDayLists(s, mks);
      var first := KeyOrder(DaysOf(s, mks[0]));
      assert lists == [MonthDays(s, mks[0])] + MonthDayLists(s, mks[1..]);
      assert lists[1..] == MonthDayLists(s, mks[1..]);
      assert Flatten(lists) == lists[0] + Flatten(lists[1..]);
      assert FlatKeys(s, mks) == first + FlatKeys(s, mks[1..]);
      FlattenRows(s, mks[1..]);
      RowsAtConcat(s.days.rows, first, FlatKeys(s, mks[1..]));
    }
  }

  /** Under `Linked`, the days of a year's months are exactly the days of the year. */
  lemma MonthsCoverYear(s: Store, yearId: int, mks: seq<int>)
    requires Linked(s)
    requires forall k :: k in mks <==> k in MonthsOf(s, yearId)
    ensures forall k :: k in FlatKeys(s, mks) <==> k in KeyOrder(YearDayKeys(s, yearId))
  {
    forall k | k in s.days.rows
      ensures s.days.rows[k].monthId in mks <==> s.days.rows[k].yearId == yearId
    {
      assert s.days.rows[k].monthId in s.months.rows;
    }
  }

  /** The year query returns the days of the year's months, possibly in another order. */
  lemma YearDaysPermuteMonthDays(s: Store, yearId: int, mks: seq<int>)
    requires Linked(s) && Distinct(mks)
    requires forall k :: k in mks <==> k in MonthsOf(s, yearId)
    ensures multiset(YearDays(s, yearId)) == multiset(Flatten(MonthDayLists(s, mks)))
  {
    var fk := FlatKeys(s, mks);
    var yk := KeyOrder(YearDayKeys(s, yearId));
    MonthsCoverYear(s, yearId, mks);
    FlatKeysDistinct(s, mks);
    SameKeysSameMultiset(yk, fk);
    assert forall i :: 0 <= i < |yk| ==> yk[i] in yk;
    assert forall i :: 0 <= i < |fk| ==> fk[i] in fk;
    RowsAtPerm(s.days.rows, yk, fk);
    FlattenRows(s, mks);
  }

  /** Under `Linked`, a year without months has no days. */
  lemma YearWithoutMonthsHasNoDays(s: Store, yearId: int)
    requires Linked(s) && forall k :: k !in MonthsOf(s, yearId)
    ensures YearDays(s, yearId) == []
  {
    forall k | k in s.days.rows
      ensures s.days.rows[k].yearId != yearId
    {
      assert s.days.rows[k].monthId !in MonthsOf(s, yearId);
    }
    assert YearDayKeys(s, yearId) == {};
  }

  /** The year view over one or more months shows the year's own stats. */
  lemma YearViewOfMonths(s: Store, yearId: int, mks: seq<int>)
    requires Linked(s) && Distinct(mks) && mks != []
    requires forall k :: k in mks <==> k in MonthsOf(s, yearId)
    ensures YearViewStats(s, mks) == Filled(GetYearStats(s, yearId))
  {
    YearDaysPermuteMonthDays(s, yearId, mks);
    YearStatsFromMonths(MonthStatsList(s, mks), MonthDayLists(s, mks), YearDays(s, yearId));
  }

  /**
   * The year view adds up the stats of the year's months; in a store whose
   * days belong to months of their own year that is exactly what
   * `getYearStats` computes over the year's days, whatever order the
   * months are listed in. A year without months has no days either, yet
   * its view is left unfilled rather than showing the zero stats.
   */
  lemma YearViewMatchesYearStats(s: Store, yearId: int, mks: seq<int>)
    requires Linked(s) && Distinct(mks)
    requires forall k :: k in mks <==> k in MonthsOf(s, yearId)
    ensures mks != [] ==> YearViewStats(s, mks) == Filled(GetYearStats(s, yearId))
    ensures mks == [] ==> YearViewStats(s, mks) == Unfilled && YearDays(s, yearId) == []
  {
    if mks == [] {
      YearWithoutMonthsHasNoDays(s, yearId);
    } else {
      YearViewOfMonths(s, yearId, mks);
    }
  }
}

=== FILE: records.dfy ===
/**
 * The persisted record shapes: Year, Month and Day, plus the derived Stats.
 * Record ids are not fields here: every table is a map from id to record.
 */
module Records {

  /** The absence code of a day; `NoCode` is the empty string. */
  datatype Code = NoCode | K | KK | U | FT

  /** The comment `setDayCode` writes for a code (`codeLabels[code] || ''`). */
  function Label(c: Code): string {
    match c
    case NoCode => ""
    case K => "Krank"
    case KK => "Kind krank"
    case U => "Urlaub"
    case FT => "Feiertag"
  }

  /** The calendar date a Day stands for, in the full year the browser used. */
  datatype Date = Date(year: int, month: int, day: int)

  datatype Year = Year(year: int)

  datatype Month = Month(yearId: int, year: int, month: int)

  datatype Day = Day(
    monthId: int,
    yearId: int,
    year: int,
    month: int,
    day: int,
    date: Date,
    dayOfWeek: int,
    isWeekend: bool,
    isoWeek: int,
    von: string,
    bis: string,
    von2: string,
    bis2: string,
    pause: string,
    code: Code,
    comment: string,
    sollStunden: real,
    istStunden: real
  )

  /** Summary counters of a collection of days; derived, never stored. */
  datatype Stats = Stats(
    arbeitstage: nat,
    krank: nat,
    kindkrank: nat,
    urlaub: nat,
    feiertag: nat,
    sollStunden: real,
    istStunden: real,
    differenz: real,
    durchschnitt: real
  )
}

=== FILE: stats.dfy ===
/**
 * `calculateStats`: one pass over a collection of days, and the year view's
 * aggregation of per-month stats.
 */
module StatsEngine {
  import opened Records

  /** The running counters of the single pass (everything but the two derived fields). */
  datatype Tally = Tally(
    arbeitstage: nat,
    krank: nat,
    kindkrank: nat,
    urlaub: nat,
    feiertag: nat,
    soll: real,
    ist: real
  )

  function Plus(a: Tally, b: Tally): Tally {
    Tally(a.arbeitstage + b.arbeitstage, a.krank + b.krank, a.kindkrank + b.kindkrank,
          a.urlaub + b.urlaub, a.feiertag + b.feiertag, a.soll + b.soll, a.ist + b.ist)
  }

  /** What one day adds: a workday if not weekend, its own absence counter, its hours. */
  function OneDay(d: Day): Tally {
    Tally(Count(!d.isWeekend), Count(d.code == K), Count(d.code == KK), Count(d.code == U), Count(d.code == FT),
          d.sollStunden, d.istStunden)
  }

  /** 1 for a condition that holds, 0 otherwise. */
  function Count(b: bool): nat {
    if b then 1 else 0
  }

  /** The counters after the loop over `days`. */
  function TallyOf(days: seq<Day>): (t: Tally)
    ensures t.arbeitstage <= |days|
    ensures t.krank + t.kindkrank + t.urlaub + t.feiertag <= |days|
  {
    if days == [] then Tally(0, 0, 0, 0, 0, 0.0, 0.0) else Plus(OneDay(days[0]), TallyOf(days[1..]))
  }

  /** Derive `differenz` and `durchschnitt` from the counters. */
  function Finish(t: Tally): (s: Stats)
    ensures s.differenz == s.istStunden - s.sollStunden
    ensures s.arbeitstage == 0 ==> s.durchschnitt == 0.0
    ensures s.arbeitstage > 0 ==> s.durchschnitt * (s.arbeitstage as real) == s.istStunden
  {
    Stats(t.arbeitstage, t.krank, t.kindkrank, t.urlaub, t.feiertag, t.soll, t.ist,
          t.ist - t.soll,
          if t.arbeitstage > 0 then t.ist / (t.arbeitstage as real) else 0.0)
  }

  /** The counters a Stats record carries. */
  function CountersOf(s: Stats): Tally {
    Tally(s.arbeitstage, s.krank, s.kindkrank, s.urlaub, s.feiertag, s.sollStunden, s.istStunden)
  }

  /** `calculateStats`. */
  function CalculateStats(days: seq<Day>): (s: Stats)
    ensures s.arbeitstage <= |days|
    ensures s.krank + s.kindkrank + s.urlaub + s.feiertag <= |days|
    ensures s.differenz == s.istStunden - s.sollStunden
    ensures s.arbeitstage == 0 ==> s.durchschnitt == 0.0
    ensures s.arbeitstage > 0 ==> s.durchschnitt * (s.arbeitstage as real) == s.istStunden
  {
    Finish(TallyOf(days))
  }

  // ---------------------------------------------------------------------------
  // Independent descriptions of the counters: multiplicities in the multiset
  // of codes and of weekend flags.

  function Codes(days: seq<Day>): (cs: seq<Code>)
    ensures |cs| == |days|
  {
    if days == [] then [] else [days[0].code] + Codes(days[1..])
  }

  function WeekendFlags(days: seq<Day>): (ws: seq<bool>)
    ensures |ws| == |days|
  {
    if days == [] then [] else [days[0].isWeekend] + WeekendFlags(days[1..])
  }

  lemma {:induction false} WorkdaysCountDays(days: seq<Day>)
    ensures TallyOf(days).arbeitstage == multiset(WeekendFlags(days))[false]
  {
    if days != [] {
      WorkdaysCountDays(days[1..]);
      assert multiset(WeekendFlags(days)) == multiset{days[0].isWeekend} + multiset(WeekendFlags(days[1..]));
    }
  }

  /** The counter of `t` that counts absence code `c`. */
  function CodeCounter(t: Tally, c: Code): nat
    requires c != NoCode
  {
    match c
    case K => t.krank
    case KK => t.kindkrank
    case U => t.urlaub
    case FT => t.feiertag
  }

  lemma {:induction false} CodeCounterCountsDays(days: seq<Day>, c: Code)
    requires c != NoCode
    ensures CodeCounter(TallyOf(days), c) == multiset(Codes(days))[c]
  {
    if days != [] {
      CodeCounterCountsDays(days[1..], c);
      assert multiset(Codes(days)) == multiset{days[0].code} + multiset(Codes(days[1..]));
    }
  }

  lemma {:induction false} BlankDaysCount(days: seq<Day>)
    ensures var t := TallyOf(days);
      t.krank + t.kindkrank + t.urlaub + t.feiertag + multiset(Codes(days))[NoCode] == |days|
  {
    if days != [] {
      BlankDaysCount(days[1..]);
      assert multiset(Codes(days)) == multiset{days[0].code} + multiset(Codes(days[1..]));
    }
  }

  lemma CodeCountersCountDays(days: seq<Day>)
    ensures var t := TallyOf(days);
      && t.krank == multiset(Codes(days))[K]
      && t.kindkrank == multiset(Codes(days))[KK]
      && t.urlaub == multiset(Codes(days))[U]
      && t.feiertag == multiset(Codes(days))[FT]
  {
    CodeCounterCountsDays(days, K);
    CodeCounterCountsDays(days, KK);
    CodeCounterCountsDays(days, U);
    CodeCounterCountsDays(days, FT);
  }

  /**
   * Each absence counter is the number of days carrying exactly that code,
   * and `arbeitstage` is the number of non-weekend days, coded or not.
   */
  lemma {:induction false} CountersCountDays(days: seq<Day>)
    ensures var s := CalculateStats(days);
      && s.arbeitstage == multiset(WeekendFlags(days))[false]
      && s.krank == multiset(Codes(days))[K]
      && s.kindkrank == multiset(Codes(days))[KK]
      && s.urlaub == multiset(Codes(days))[U]
      && s.feiertag == multiset(Codes(days))[FT]
  {
    WorkdaysCountDays(days);
    CodeCountersCountDays(days);
    StatsCarryTally(days);
  }

  /** The four absence counters and the blank days partition the days. */
  lemma {:induction false} CodesPartitionDays(days: seq<Day>)
    ensures var s := CalculateStats(days);
      s.krank + s.kindkrank + s.urlaub + s.feiertag + multiset(Codes(days))[NoCode] == |days|
  {
    BlankDaysCount(days);
    StatsCarryTally(days);
  }

  /** The counters of `calculateStats` are those of the pass over the days. */
  lemma StatsCarryTally(days: seq<Day>)
    ensures CountersOf(CalculateStats(days)) == TallyOf(days)
  {
  }

  // ---------------------------------------------------------------------------
  // The pass is a homomorphism from concatenation to addition, and does not
  // depend on the order of the days.

  lemma {:induction false} TallyConcat(a: seq<Day>, b: seq<Day>)
    ensures TallyOf(a + b) == Plus(TallyOf(a), TallyOf(b))
  {
    if a != [] {
      assert (a + b)[0] == a[0];
      assert (a + b)[1..] == a[1..] + b;
      TallyConcat(a[1..], b);
    } else {
      assert a + b == b;
    }
  }

  /** `calculateStats` is order-independent: any permutation of the days gives the same stats. */
  lemma {:induction false} StatsOrderIndependent(a: seq<Day>, b: seq<Day>)
    requires multiset(a) == multiset(b)
    ensures CalculateStats(a) == CalculateStats(b)
  {
    TallyPermutation(a, b);
  }

  /** Taking one day out of the middle removes exactly that day's contribution. */
  lemma {:induction false} TallyRemove(b: seq<Day>, j: int)
    requires 0 <= j < |b|
    ensures TallyOf(b) == Plus(OneDay(b[j]), TallyOf(b[..j] + b[j + 1..]))
  {
    var rest := b[..j] + b[j + 1..];
    if j == 0 {
      assert rest == b[1..];
    } else {
      TallyRemove(b[1..], j - 1);
      assert rest[0] == b[0];
      assert rest[1..] == b[1..][..j - 1] + b[1..][j..];
      PlusShuffle(OneDay(b[0]), OneDay(b[j]), TallyOf(rest[1..]));
    }
  }

  lemma PlusShuffle(p: Tally, q: Tally, r: Tally)
    ensures Plus(p, Plus(q, r)) == Plus(q, Plus(p, r))
  {
  }

  lemma MultisetRemove<T>(a: seq<T>, b: seq<T>, j: int)
    requires a != [] && 0 <= j < |b| && b[j] == a[0]
    requires multiset(a) == multiset(b)
    ensures multiset(a[1..]) == multiset(b[..j] + b[j + 1..])
  {
    assert a == [a[0]] + a[1..];
    assert b == b[..j] + [b[j]] + b[j + 1..];
    assert multiset(a[1..]) == multiset(a) - multiset{a[0]};
    assert multiset(b[..j] + b[j + 1..]) == multiset(b) - multiset{b[j]};
  }

  lemma {:induction false} TallyPermutation(a: seq<Day>, b: seq<Day>)
    requires multiset(a) == multiset(b)
    ensures TallyOf(a) == TallyOf(b)
    decreases |a|
  {
    if a == [] {
      assert |multiset(b)| == 0;
    } else {
      assert a[0] in multiset(b);
      var j :| 0 <= j < |b| && b[j] == a[0];
      MultisetRemove(a, b, j);
      TallyPermutation(a[1..], b[..j] + b[j + 1..]);
      TallyRemove(b, j);
    }
  }

  // ---------------------------------------------------------------------------
  // Year stats in the year view: the per-month counters summed, then the two
  // derived fields recomputed.

  function SumCounters(ms: seq<Stats>): Tally {
    if ms == [] then Tally(0, 0, 0, 0, 0, 0.0, 0.0) else Plus(CountersOf(ms[0]), SumCounters(ms[1..]))
  }

  /**
   * The record the year view shows. The reduce starts from `{}`: over no
   * months every counter stays `undefined` and `differenz` is NaN (only
   * `durchschnitt` comes out 0), so that record is `Unfilled`; over one or
   * more months every counter is filled in.
   */
  datatype YearView = Unfilled | Filled(stats: Stats)

  /** The year view's `months.reduce(...)` followed by `differenz` and `durchschnitt`. */
  function AggregateYearStats(ms: seq<Stats>): (v: YearView)
    ensures v.Unfilled? <==> ms == []
    ensures v.Filled? ==> CountersOf(v.stats) == SumCounters(ms)
    ensures v.Filled? ==> v.stats.differenz == v.stats.istStunden - v.stats.sollStunden
    ensures v.Filled? && v.stats.arbeitstage == 0 ==> v.stats.durchschnitt == 0.0
    ensures v.Filled? && v.stats.arbeitstage > 0 ==>
      v.stats.durchschnitt * (v.stats.arbeitstage as real) == v.stats.istStunden
  {
    if ms == [] then Unfilled else Filled(Finish(SumCounters(ms)))
  }

  function Flatten(dss: seq<seq<Day>>): seq<Day> {
    if dss == [] then [] else dss[0] + Flatten(dss[1..])
  }

  /**
   * Summing the per-month stats of one or more months gives exactly the
   * stats of all the year's days taken together (whatever order the year
   * query returns them in); with no months the view is left unfilled.
   */
  lemma {:induction false} YearStatsFromMonths(ms: seq<Stats>, monthDays: seq<seq<Day>>, yearDays: seq<Day>)
    requires |ms| == |monthDays|
    requires forall i :: 0 <= i < |ms| ==> ms[i] == CalculateStats(monthDays[i])
    requires multiset(yearDays) == multiset(Flatten(monthDays))
    ensures ms == [] ==> AggregateYearStats(ms) == Unfilled
    ensures ms != [] ==> AggregateYearStats(ms) == Filled(CalculateStats(yearDays))
  {
    SumCountersIsTally(ms, monthDays);
    TallyPermutation(yearDays, Flatten(monthDays));
  }

  lemma {:induction false} SumCountersIsTally(ms: seq<Stats>, monthDays: seq<seq<Day>>)
    requires |ms| == |monthDays|
    requires forall i :: 0 <= i < |ms| ==> ms[i] == CalculateStats(monthDays[i])
    ensures SumCounters(ms) == TallyOf(Flatten(monthDays))
  {
    if ms != [] {
      assert ms[0] == CalculateStats(monthDays[0]);
      StatsCarryTally(monthDays[0]);
      forall i | 0 <= i < |ms[1..]|
        ensures ms[1..][i] == CalculateStats(monthDays[1..][i])
      {
        assert ms[1..][i] == ms[i + 1];
      }
      SumCountersIsTally(ms[1..], monthDays[1..]);
      assert Flatten(monthDays) == monthDays[0] + Flatten(monthDays[1..]);
      TallyConcat(monthDays[0], Flatten(monthDays[1..]));
    }
  }
}

=== FILE: store.dfy ===
/**
 * The primary store: three IndexedDB object stores (years, months, days)
 * with auto-incremented primary keys, and the operations of `TimeCalDB`
 * that create, edit and delete rows in them.
 */
module Store {
  import opened Wrappers
  import opened Calendar
  import opened Records
  import opened TimeCalc

  /**
   * One object store: rows by primary key, plus the key generator of the
   * `++id` key. The generator always lies above every key in use; it only
   * ever grows (clearing or deleting rows does not reset it).
   */
  datatype Table<T> = Table(rows: map<int, T>, next: int)

  datatype Store = Store(years: Table<Year>, months: Table<Month>, days: Table<Day>)

  /** The key generator lies above every key in use, so the key it hands out next is free. */
  predicate KeysBelow<T>(t: Table<T>) {
    forall k :: k in t.rows ==> k < t.next
  }

  /** All three key generators are ahead of their tables, as IndexedDB keeps them. */
  predicate Keyed(s: Store) {
    KeysBelow(s.years) && KeysBelow(s.months) && KeysBelow(s.days)
  }

  datatype StoreError = YearExists(year: int) | NoSuchDay(id: int)

  /** A fresh database: no rows, every generator at 1. */
  function EmptyStore(): (s: Store)
    ensures s.years.rows == map[] && s.months.rows == map[] && s.days.rows == map[]
  {
    Store(Table(map[], 1), Table(map[], 1), Table(map[], 1))
  }

  /** `table.add(row)` without an id: the row gets the generator's next key. */
  function Insert<T>(t: Table<T>, r: T): (res: (Table<T>, int))
    ensures KeysBelow(t) ==> res.1 !in t.rows && KeysBelow(res.0)
    ensures res.0.rows == t.rows[res.1 := r]
    ensures res.1 == t.next && res.0.next == t.next + 1
  {
    (Table(t.rows[t.next := r], t.next + 1), t.next)
  }

  // ---------------------------------------------------------------------------
  // Key order

  /** A set that is not empty has an element. */
  lemma Inhabited(ks: set<int>)
    requires ks != {}
    ensures exists x :: x in ks
  {
    assert (forall x :: x !in ks) ==> ks == {};
  }

  lemma {:induction false} HasSmallest(ks: set<int>)
    requires ks != {}
    ensures exists m :: m in ks && forall x :: x in ks ==> m <= x
    decreases |ks|
  {
    Inhabited(ks);
    var x :| x in ks;
    var rest := ks - {x};
    if rest == {} {
      SmallestOfOne(ks, x);
    } else {
      HasSmallest(rest);
      var m :| m in rest && forall y :: y in rest ==> m <= y;
      SmallestOfMore(ks, x, m);
    }
  }

  lemma SmallestOfOne(ks: set<int>, x: int)
    requires x in ks && ks - {x} == {}
    ensures forall y :: y in ks ==> x <= y
  {
    forall y | y in ks
      ensures x <= y
    {
      assert y != x ==> y in ks - {x};
    }
  }

  lemma SmallestOfMore(ks: set<int>, x: int, m: int)
    requires x in ks && m in ks && forall y :: y in ks - {x} ==> m <= y
    ensures var least := if x < m then x else m;
      least in ks && forall y :: y in ks ==> least <= y
  {
    forall y | y in ks
      ensures (if x < m then x else m) <= y
    {
      assert y == x || y in ks - {x};
    }
  }

  function Smallest(ks: set<int>): (m: int)
    requires ks != {}
    ensures m in ks && forall x :: x in ks ==> m <= x
  {
    HasSmallest(ks);
    var m :| m in ks && forall x :: x in ks ==> m <= x;
    m
  }

  /** The keys of a table in ascending order, the order `toArray()` lists its rows in. */
  function KeyOrder(ks: set<int>): (r: seq<int>)
    ensures forall k :: k in r <==> k in ks
    ensures forall i, j :: 0 <= i < j < |r| ==> r[i] < r[j]
    decreases |ks|
  {
    if ks == {} then []
    else
      var m := Smallest(ks);
      [m] + KeyOrder(ks - {m})
  }

  // ---------------------------------------------------------------------------
  // Invariants of the store

  /** Every month belongs to a stored year; every day to a stored month of the same year. */
  predicate Linked(s: Store) {
    && (forall k :: k in s.months.rows ==> s.months.rows[k].yearId in s.years.rows)
    && (forall k :: k in s.days.rows ==>
          s.days.rows[k].monthId in s.months.rows &&
          s.months.rows[s.days.rows[k].monthId].yearId == s.days.rows[k].yearId)
  }

  /** No two rows of a years table carry the same year number. */
  predicate DistinctYears(t: map<int, Year>) {
    forall a, b :: a in t && b in t && t[a].year == t[b].year ==> a == b
  }

  /** No two stored years carry the same year number. */
  predicate UniqueYears(s: Store) {
    DistinctYears(s.years.rows)
  }

  predicate Good(s: Store) {
    Keyed(s) && Linked(s) && UniqueYears(s)
  }

  predicate YearTaken(s: Store, year: int) {
    exists k :: k in s.years.rows && s.years.rows[k].year == year
  }

  // ---------------------------------------------------------------------------
  // createMonth / createYear

  /**
   * The row `createMonth` writes for day `day` of a month: weekday, weekend
   * flag and ISO week of the date the browser builds (years 0..99 moved to
   * the 1900s), empty times, the default break and target on workdays.
   */
  function NewDay(monthId: int, yearId: int, year: int, month: int, day: int): (d: Day)
    requires 1 <= month <= 12 && 1 <= day <= DaysInMonth(JsYear(year), month)
    ensures d.monthId == monthId && d.yearId == yearId && d.year == year && d.month == month && d.day == day
    ensures d.dayOfWeek == Weekday(JsYear(year), month, day)
    ensures d.isWeekend <==> d.dayOfWeek == 0 || d.dayOfWeek == 6
    ensures d.isWeekend ==> d.pause == "" && d.sollStunden == 0.0
    ensures !d.isWeekend ==> d.pause == "00:30" && d.sollStunden == 8.0
    ensures d.code == NoCode && d.istStunden == 0.0
  {
    var y := JsYear(year);
    var dow := Weekday(y, month, day);
    var weekend := dow == 0 || dow == 6;
    Day(monthId, yearId, year, month, day, Date(y, month, day), dow, weekend, IsoWeek(y, month, day),
        "", "", "", "", if weekend then "" else "00:30", NoCode, "",
        if weekend then 0.0 else 8.0, 0.0)
  }

  /**
   * The rows of the days of a new month, keyed `lo .. hi - 1` in day order,
   * as the day loop of `createMonth` adds them.
   */
  function NewDays(monthId: int, yearId: int, year: int, month: int, lo: int, hi: int): (m: map<int, Day>)
    requires 1 <= month <= 12 && lo <= hi <= lo + DaysInMonth(JsYear(year), month)
    ensures forall k :: k in m <==> lo <= k < hi
  {
    map k | lo <= k < hi :: DayAtKey(monthId, yearId, year, month, lo, hi, k)
  }

  /** The new day stored under key `k` when the month's days start at key `lo`. */
  function DayAtKey(monthId: int, yearId: int, year: int, month: int, lo: int, hi: int, k: int): (d: Day)
    requires 1 <= month <= 12 && lo <= k < hi <= lo + DaysInMonth(JsYear(year), month)
  {
    NewDay(monthId, yearId, year, month, k - lo + 1)
  }

  /** Key `k` of a new month holds day `k - lo + 1`. */
  lemma NewDaysAt(monthId: int, yearId: int, year: int, month: int, lo: int, hi: int, k: int)
    requires 1 <= month <= 12 && lo <= hi <= lo + DaysInMonth(JsYear(year), month)
    requires lo <= k < hi
    ensures NewDays(monthId, yearId, year, month, lo, hi)[k] == NewDay(monthId, yearId, year, month, k - lo + 1)
  {
  }

  /** Keys of the days that belong to month row `monthId`. */
  function DaysOf(s: Store, monthId: int): set<int> {
    set k | k in s.days.rows && s.days.rows[k].monthId == monthId
  }

  /** Keys of the months that belong to year row `yearId`. */
  function MonthsOf(s: Store, yearId: int): set<int> {
    set k | k in s.months.rows && s.months.rows[k].yearId == yearId
  }

  /**
   * `createMonth(yearId, year, month)`: one month row, then one day row for
   * each day of the month, keyed in day order.
   */
  function CreateMonth(s: Store, yearId: int, year: int, month: int): (res: (Store, int))
    requires 1 <= month <= 12
    ensures res.0.years == s.years
    ensures KeysBelow(s.months) ==> res.1 !in s.months.rows
    ensures res.0.months.rows == s.months.rows[res.1 := Month(yearId, year, month)]
    ensures res.1 == s.months.next && res.0.months.next == s.months.next + 1
    ensures res.0.days.rows == s.days.rows + NewDays(res.1, yearId, year, month, s.days.next, s.days.next + DaysInMonth(JsYear(year), month))
    ensures res.0.days.next == s.days.next + DaysInMonth(JsYear(year), month)
    ensures Keyed(s) ==> Keyed(res.0)
  {
    var (months, monthId) := Insert(s.months, Month(yearId, year, month));
    var days := Table(s.days.rows + NewDays(monthId, yearId, year, month, s.days.next, s.days.next + DaysInMonth(JsYear(year), month)),
                      s.days.next + DaysInMonth(JsYear(year), month));
    (Store(s.years, months, days), monthId)
  }

  /**
   * The loop of `createYear` over the months. `start` is the key the loop
   * gave its first month; since each `createMonth` takes exactly one month
   * key, the loop's month counter is one more than the number of keys taken
   * since then, and the loop stops after month 12.
   */
  function AddMonths(s: Store, yearId: int, year: int, start: int): (r: Store)
    requires start <= s.months.next <= start + 12
    ensures r.years == s.years
    ensures Keyed(s) ==> Keyed(r)
    decreases start + 12 - s.months.next
  {
    if s.months.next == start + 12 then s
    else AddMonths(CreateMonth(s, yearId, year, s.months.next - start + 1).0, yearId, year, start)
  }

  /**
   * `createYear(year)`: refused when a year row with that number exists;
   * otherwise a year row and its twelve months with all their days.
   */
  function CreateYear(s: Store, year: int): (res: Result<(Store, int), StoreError>)
    ensures res.Failure? <==> YearTaken(s, year)
    ensures res.Failure? ==> res.error == YearExists(year)
    ensures res.Success? && KeysBelow(s.years) ==> res.value.1 !in s.years.rows
    ensures res.Success? ==>
      res.value.0.years.rows == s.years.rows[res.value.1 := Year(year)]
  {
    if YearTaken(s, year) then Failure(YearExists(year))
    else
      var (years, yearId) := Insert(s.years, Year(year));
      Success((AddMonths(Store(years, s.months, s.days), yearId, year, s.months.next), yearId))
  }

  // ---------------------------------------------------------------------------
  // deleteYear

  /** `deleteYear(yearId)`: the year's days, then its months, then the year row. */
  function DeleteYear(s: Store, yearId: int): (r: Store)
    ensures r.years.rows == s.years.rows - {yearId}
    ensures forall k :: k in r.months.rows <==> k in s.months.rows && s.months.rows[k].yearId != yearId
    ensures forall k :: k in r.days.rows <==> k in s.days.rows && s.days.rows[k].yearId != yearId
    ensures forall k :: k in r.months.rows ==> r.months.rows[k] == s.months.rows[k]
    ensures forall k :: k in r.days.rows ==> r.days.rows[k] == s.days.rows[k]
    ensures r.years.next == s.years.next && r.months.next == s.months.next && r.days.next == s.days.next
  {
    var days := map k | k in s.days.rows && s.days.rows[k].yearId != yearId :: s.days.rows[k];
    var months := map k | k in s.months.rows && s.months.rows[k].yearId != yearId :: s.months.rows[k];
    Store(Table(s.years.rows - {yearId}, s.years.next), Table(months, s.months.next), Table(days, s.days.next))
  }

  // ---------------------------------------------------------------------------
  // updateDay / setDayCode / clearDayCode

  /** The fields a `Partial<Day>` from the month table can carry; `None` is an absent key. */
  datatype DayUpdate = DayUpdate(
    von: Option<string>,
    bis: Option<string>,
    von2: Option<string>,
    bis2: Option<string>,
    pause: Option<string>,
    code: Option<Code>,
    comment: Option<string>,
    sollStunden: Option<real>,
    istStunden: Option<real>
  )

  function Or<T>(o: Option<T>, dflt: T): T {
    if o.Some? then o.value else dflt
  }

  /** `{ ...day, ...updates }`. */
  function Merge(d: Day, u: DayUpdate): Day {
    d.(von := Or(u.von, d.von), bis := Or(u.bis, d.bis), von2 := Or(u.von2, d.von2),
       bis2 := Or(u.bis2, d.bis2), pause := Or(u.pause, d.pause), code := Or(u.code, d.code),
       comment := Or(u.comment, d.comment), sollStunden := Or(u.sollStunden, d.sollStunden),
       istStunden := Or(u.istStunden, d.istStunden))
  }

  /** Whether the update names a field the worked hours depend on. */
  predicate TouchesHours(u: DayUpdate) {
    u.von.Some? || u.bis.Some? || u.von2.Some? || u.bis2.Some? || u.pause.Some? || u.code.Some?
  }

  /** The fields fixed when the day row was created: its references and its place in the calendar. */
  predicate SameCalendar(a: Day, b: Day) {
    && a.monthId == b.monthId && a.yearId == b.yearId && a.year == b.year && a.month == b.month
    && a.day == b.day && a.date == b.date && a.dayOfWeek == b.dayOfWeek
    && a.isWeekend == b.isWeekend && a.isoWeek == b.isoWeek
  }

  /** The time fields of a day are blank or `HH:MM`. */
  predicate WellTimed(d: Day) {
    TimeFields(d.von, d.bis, d.von2, d.bis2, d.pause)
  }

  /**
   * The row `updateDay` stores: the merged row, and when a time field or the
   * code was part of the update, the recomputed hours: eight target and
   * eight worked hours under an absence code, the computed working time
   * without one.
   */
  function UpdatedDay(d: Day, u: DayUpdate): (r: Day)
    requires WellTimed(Merge(d, u))
    // fields outside the update keep their value; fields in it take the new one
    ensures && r.von == Or(u.von, d.von) && r.bis == Or(u.bis, d.bis)
            && r.von2 == Or(u.von2, d.von2) && r.bis2 == Or(u.bis2, d.bis2)
            && r.pause == Or(u.pause, d.pause) && r.code == Or(u.code, d.code)
            && r.comment == Or(u.comment, d.comment)
    ensures SameCalendar(r, d)
    ensures !TouchesHours(u) ==>
      r.sollStunden == Or(u.sollStunden, d.sollStunden) && r.istStunden == Or(u.istStunden, d.istStunden)
    ensures TouchesHours(u) && r.code != NoCode ==> r.sollStunden == 8.0 && r.istStunden == 8.0
    ensures TouchesHours(u) && r.code == NoCode ==>
      && r.sollStunden == Or(u.sollStunden, d.sollStunden)
      && r.istStunden >= 0.0
      && (NetMinutes(r.von, r.bis, r.von2, r.bis2, r.pause) >= 0 ==>
            r.istStunden * 60.0 == NetMinutes(r.von, r.bis, r.von2, r.bis2, r.pause) as real)
      && (NetMinutes(r.von, r.bis, r.von2, r.bis2, r.pause) <= 0 ==> r.istStunden == 0.0)
  {
    var m := Merge(d, u);
    if !TouchesHours(u) then m
    else if m.code != NoCode then m.(istStunden := 8.0, sollStunden := 8.0)
    else m.(istStunden := CalculateWorkHours(m.von, m.bis, m.von2, m.bis2, m.pause))
  }

  /**
   * `updateDay(dayId, updates)`: the stored row and the row read back, or no
   * change and `undefined` when there is no such day.
   */
  function UpdateDay(s: Store, id: int, u: DayUpdate): (res: (Store, Option<Day>))
    requires id in s.days.rows ==> WellTimed(Merge(s.days.rows[id], u))
    ensures id !in s.days.rows <==> res.1.None?
    ensures id !in s.days.rows ==> res.0 == s
    ensures id in s.days.rows ==>
      res.0 == s.(days := s.days.(rows := s.days.rows[id := res.1.value])) &&
      res.1.value == UpdatedDay(s.days.rows[id], u)
  {
    if id !in s.days.rows then (s, None)
    else
      var r := UpdatedDay(s.days.rows[id], u);
      (s.(days := s.days.(rows := s.days.rows[id := r])), Some(r))
  }

  /** The row `setDayCode` leaves: the code, its label, 08:00-16:00 without a break, eight hours. */
  function CodedDay(d: Day, c: Code): (r: Day)
    ensures SameCalendar(r, d)
    ensures r.code == c && r.comment == Label(c)
    ensures r.von == "08:00" && r.bis == "16:00" && r.von2 == "" && r.bis2 == "" && r.pause == "00:00"
    ensures r.sollStunden == 8.0 && r.istStunden == 8.0
    // the stored hours are the ones the written times compute to
    ensures WellTimed(r) && CalculateWorkHours(r.von, r.bis, r.von2, r.bis2, r.pause) == r.istStunden
  {
    AbsenceTimesAreEightHours();
    d.(code := c, comment := Label(c), von := "08:00", bis := "16:00", von2 := "", bis2 := "",
       pause := "00:00", istStunden := 8.0, sollStunden := 8.0)
  }

  /** `setDayCode(dayId, code)`; a missing day is left missing. */
  function SetDayCode(s: Store, id: int, c: Code): (res: (Store, Option<Day>))
    ensures id !in s.days.rows ==> res == (s, None)
    ensures id in s.days.rows ==> res.1 == Some(CodedDay(s.days.rows[id], c))
    ensures id in s.days.rows ==> res.0 == s.(days := s.days.(rows := s.days.rows[id := res.1.value]))
    ensures res.1.Some? ==> var r := res.1.value;
      && r.code == c && r.comment == Label(c)
      && WellTimed(r) && r.istStunden == CalculateWorkHours(r.von, r.bis, r.von2, r.bis2, r.pause) == r.sollStunden
  {
    if id !in s.days.rows then (s, None)
    else
      var r := CodedDay(s.days.rows[id], c);
      (s.(days := s.days.(rows := s.days.rows[id := r])), Some(r))
  }

  /** The row `clearDayCode` leaves: no code, no times, the creation defaults for break and target. */
  function ClearedDay(d: Day): (r: Day)
    ensures SameCalendar(r, d)
    ensures r.code == NoCode && r.comment == ""
    ensures r.von == "" && r.bis == "" && r.von2 == "" && r.bis2 == ""
    // weekend days get no break and no target, workdays half an hour and eight hours
    ensures r.pause == (if d.isWeekend then "" else "00:30")
    ensures r.sollStunden == (if d.isWeekend then 0.0 else 8.0)
    ensures r.istStunden == 0.0
    ensures WellTimed(r) && CalculateWorkHours(r.von, r.bis, r.von2, r.bis2, r.pause) == r.istStunden
  {
    d.(code := NoCode, comment := "", von := "", bis := "", von2 := "", bis2 := "",
       pause := if d.isWeekend then "" else "00:30", istStunden := 0.0,
       sollStunden := if d.isWeekend then 0.0 else 8.0)
  }

  /** `clearDayCode(dayId)`: reading the missing day's weekend flag throws. */
  function ClearDayCode(s: Store, id: int): (res: Result<(Store, Day), StoreError>)
    ensures res.Failure? <==> id !in s.days.rows
    ensures res.Failure? ==> res.error == NoSuchDay(id)
    ensures res.Success? ==> res.value.1 == ClearedDay(s.days.rows[id])
    ensures res.Success? ==> res.value.0 == s.(days := s.days.(rows := s.days.rows[id := res.value.1]))
    ensures res.Success? ==> var r := res.value.1;
      && r.code == NoCode && r.comment == "" && r.istStunden == 0.0
      && WellTimed(r) && CalculateWorkHours(r.von, r.bis, r.von2, r.bis2, r.pause) == 0.0
  {
    if id !in s.days.rows then Failure(NoSuchDay(id))
    else Success((s.(days := s.days.(rows := s.days.rows[id := ClearedDay(s.days.rows[id])])), ClearedDay(s.days.rows[id])))
  }
}

=== FILE: store_props.dfy ===
/**
 * What `createYear`, `deleteYear` and the day edits guarantee about the
 * store as a whole: the links between years, months and days survive, the
 * year numbers stay unique, a new year has the calendar's shape, and
 * deleting a year that was just created gives back the rows there were.
 */
module StoreProps {
  import opened Wrappers
  import opened Calendar
  import opened Records
  import opened Store

  /** The integers `lo .. hi - 1`. */
  function Range(lo: int, hi: int): (r: set<int>)
    ensures forall k :: k in r <==> lo <= k < hi
    ensures |r| == if lo <= hi then hi - lo else 0
    decreases hi - lo
  {
    if lo >= hi then {} else {lo} + Range(lo + 1, hi)
  }

  /** Every day row names a stored month. */
  predicate DaysHaveMonths(s: Store) {
    forall k :: k in s.days.rows ==> s.days.rows[k].monthId in s.months.rows
  }

  /**
   * Month row `mk` holds exactly one day row per day of its month, each as
   * `createMonth` wrote it.
   */
  predicate MonthFilled(s: Store, mk: int)
    requires mk in s.months.rows && 1 <= s.months.rows[mk].month <= 12
  {
    var mo := s.months.rows[mk];
    var n := DaysInMonth(JsYear(mo.year), mo.month);
    && |DaysOf(s, mk)| == n
    && (forall d :: 1 <= d <= n ==> HasDay(s, mk, d))
    && (forall k :: k in DaysOf(s, mk) ==>
          1 <= s.days.rows[k].day <= n &&
          s.days.rows[k] == NewDay(mk, mo.yearId, mo.year, mo.month, s.days.rows[k].day))
  }

  /** Month row `mk` has a day row for day `d`. */
  predicate HasDay(s: Store, mk: int, d: int) {
    exists k :: k in DaysOf(s, mk) && s.days.rows[k].day == d
  }

  // ---------------------------------------------------------------------------
  // createMonth

  /** A day row after `createMonth` is an older row, untouched, or one of the new month's rows. */
  lemma CreateMonthDay(s: Store, yearId: int, year: int, month: int, k: int)
    requires 1 <= month <= 12 && Keyed(s)
    requires k in CreateMonth(s, yearId, year, month).0.days.rows
    ensures var res := CreateMonth(s, yearId, year, month);
      var r, lo := res.0, s.days.next;
      || (k in s.days.rows && r.days.rows[k] == s.days.rows[k])
      || (k !in s.days.rows && lo <= k < r.days.next && r.days.rows[k] == NewDay(res.1, yearId, year, month, k - lo + 1))
  {
    var lo := s.days.next;
    if lo <= k < lo + DaysInMonth(JsYear(year), month) {
      CreateMonthAddedDay(s, yearId, year, month, k);
    } else {
      CreateMonthOlderDay(s, yearId, year, month, k);
    }
  }

  /** Keys from the day generator's old value on hold the new month's days in order. */
  lemma CreateMonthAddedDay(s: Store, yearId: int, year: int, month: int, k: int)
    requires 1 <= month <= 12 && KeysBelow(s.days)
    requires s.days.next <= k < s.days.next + DaysInMonth(JsYear(year), month)
    ensures var res := CreateMonth(s, yearId, year, month);
      && k !in s.days.rows && k in res.0.days.rows
      && res.0.days.rows[k] == NewDay(res.1, yearId, year, month, k - s.days.next + 1)
  {
    var res := CreateMonth(s, yearId, year, month);
    var lo, n := s.days.next, DaysInMonth(JsYear(year), month);
    var added := NewDays(res.1, yearId, year, month, lo, lo + n);
    assert k in added;
    NewDaysAt(res.1, yearId, year, month, lo, lo + n, k);
    var d := NewDay(res.1, yearId, year, month, k - lo + 1);
    assert added[k] == d;
    assert res.0.days.rows[k] == added[k];
  }

  /** Any other key of the days after `createMonth` is an older row, untouched. */
  lemma CreateMonthOlderDay(s: Store, yearId: int, year: int, month: int, k: int)
    requires 1 <= month <= 12
    requires !(s.days.next <= k < s.days.next + DaysInMonth(JsYear(year), month))
    requires k in CreateMonth(s, yearId, year, month).0.days.rows
    ensures k in s.days.rows && CreateMonth(s, yearId, year, month).0.days.rows[k] == s.days.rows[k]
  {
  }

  /** An older day row is still there after `createMonth`. */
  lemma CreateMonthKeepsDay(s: Store, yearId: int, year: int, month: int, k: int)
    requires 1 <= month <= 12 && Keyed(s)
    requires k in s.days.rows
    ensures var r := CreateMonth(s, yearId, year, month).0;
      k in r.days.rows && r.days.rows[k] == s.days.rows[k]
  {
  }

  /** The days of the new month are the key block the month's loop added. */
  lemma NewMonthDays(s: Store, yearId: int, year: int, month: int)
    requires 1 <= month <= 12 && Keyed(s) && DaysHaveMonths(s)
    ensures var (r, mk) := CreateMonth(s, yearId, year, month);
      DaysOf(r, mk) == Range(s.days.next, r.days.next)
  {
    var res := CreateMonth(s, yearId, year, month);
    var r, mk := res.0, res.1;
    forall k | k in r.days.rows
      ensures k in DaysOf(r, mk) <==> s.days.next <= k < r.days.next
    {
      CreateMonthDay(s, yearId, year, month, k);
      if k in s.days.rows {
        assert s.days.rows[k].monthId in s.months.rows;
      }
    }
    forall k | s.days.next <= k < r.days.next
      ensures k in r.days.rows
    {
    }
  }

  /** A day row of the new month is the default row of its day number. */
  lemma NewMonthDay(s: Store, yearId: int, year: int, month: int, k: int)
    requires 1 <= month <= 12 && Keyed(s) && DaysHaveMonths(s)
    requires k in DaysOf(CreateMonth(s, yearId, year, month).0, CreateMonth(s, yearId, year, month).1)
    ensures var res := CreateMonth(s, yearId, year, month);
      var n, d := DaysInMonth(JsYear(year), month), res.0.days.rows[k];
      1 <= d.day <= n && d == NewDay(res.1, yearId, year, month, d.day)
  {
    var res := CreateMonth(s, yearId, year, month);
    var r, mk := res.0, res.1;
    assert forall j :: j in s.days.rows ==> s.days.rows[j].monthId != mk;
    CreateMonthDay(s, yearId, year, month, k);
    var day := k - s.days.next + 1;
    assert r.days.rows[k] == NewDay(mk, yearId, year, month, day);
  }

  /** `createMonth` fills its own month. */
  lemma CreateMonthFillsMonth(s: Store, yearId: int, year: int, month: int)
    requires 1 <= month <= 12 && Keyed(s) && DaysHaveMonths(s)
    ensures var (r, mk) := CreateMonth(s, yearId, year, month);
      mk in r.months.rows && MonthFilled(r, mk)
  {
    var res := CreateMonth(s, yearId, year, month);
    var r, mk := res.0, res.1;
    NewMonthDays(s, yearId, year, month);
    var lo, n := s.days.next, DaysInMonth(JsYear(year), month);
    forall d | 1 <= d <= n
      ensures HasDay(r, mk, d)
    {
      var k := lo + d - 1;
      NewMonthDay(s, yearId, year, month, k);
      CreateMonthDay(s, yearId, year, month, k);
      assert k in DaysOf(r, mk) && r.days.rows[k].day == d;
    }
    forall k | k in DaysOf(r, mk)
      ensures 1 <= r.days.rows[k].day <= n && r.days.rows[k] == NewDay(mk, yearId, year, month, r.days.rows[k].day)
    {
      NewMonthDay(s, yearId, year, month, k);
    }
  }

  /**
   * A month stays filled in any later store that keeps its month row, its
   * set of day keys and those day rows.
   */
  lemma FilledFrame(s: Store, r: Store, mk: int)
    requires mk in s.months.rows && 1 <= s.months.rows[mk].month <= 12 && MonthFilled(s, mk)
    requires mk in r.months.rows && r.months.rows[mk] == s.months.rows[mk]
    requires DaysOf(r, mk) == DaysOf(s, mk)
    requires forall k :: k in DaysOf(s, mk) ==> r.days.rows[k] == s.days.rows[k]
    ensures MonthFilled(r, mk)
  {
    var mo := s.months.rows[mk];
    var n := DaysInMonth(JsYear(mo.year), mo.month);
    forall d | 1 <= d <= n
      ensures HasDay(r, mk, d)
    {
      assert HasDay(s, mk, d);
      var k :| k in DaysOf(s, mk) && s.days.rows[k].day == d;
      assert k in DaysOf(r, mk) && r.days.rows[k].day == d;
    }
  }

  /** `createMonth` keeps every day row pointing at a stored month. */
  lemma CreateMonthKeepsDaysHaveMonths(s: Store, yearId: int, year: int, month: int)
    requires 1 <= month <= 12 && Keyed(s) && DaysHaveMonths(s)
    ensures DaysHaveMonths(CreateMonth(s, yearId, year, month).0)
  {
    var res := CreateMonth(s, yearId, year, month);
    forall k | k in res.0.days.rows
      ensures res.0.days.rows[k].monthId in res.0.months.rows
    {
      CreateMonthDay(s, yearId, year, month, k);
    }
  }

  // ---------------------------------------------------------------------------
  // The month loop of createYear
  //
  // Each lemma unfolds one round of the loop: the round adds the month whose
  // number is one more than the number of month keys taken since `start`.

  /** The loop hands out the twelve month keys from `start` on. */
  lemma {:induction false} AddMonthsNext(s: Store, yearId: int, year: int, start: int)
    requires start <= s.months.next <= start + 12
    ensures AddMonths(s, yearId, year, start).months.next == start + 12
    decreases start + 12 - s.months.next
  {
    if s.months.next < start + 12 {
      var s1 := CreateMonth(s, yearId, year, s.months.next - start + 1).0;
      assert AddMonths(s, yearId, year, start) == AddMonths(s1, yearId, year, start);
      AddMonthsNext(s1, yearId, year, start);
    }
  }

  /** The loop keeps the older month rows. */
  lemma {:induction false} AddMonthsKeepsMonths(s: Store, yearId: int, year: int, start: int, k: int)
    requires start <= s.months.next <= start + 12 && Keyed(s) && k in s.months.rows
    ensures var r := AddMonths(s, yearId, year, start);
      k in r.months.rows && r.months.rows[k] == s.months.rows[k]
    decreases start + 12 - s.months.next
  {
    if s.months.next < start + 12 {
      var s1 := CreateMonth(s, yearId, year, s.months.next - start + 1).0;
      assert AddMonths(s, yearId, year, start) == AddMonths(s1, yearId, year, start);
      assert s1.months.rows[k] == s.months.rows[k];
      AddMonthsKeepsMonths(s1, yearId, year, start, k);
    }
  }

  /** Month key `k` of the loop holds month `k - start + 1`. */
  lemma {:induction false} AddMonthsNewMonth(s: Store, yearId: int, year: int, start: int, k: int)
    requires start <= s.months.next <= k < start + 12 && Keyed(s)
    ensures var r := AddMonths(s, yearId, year, start);
      k in r.months.rows && r.months.rows[k] == Month(yearId, year, k - start + 1)
    decreases start + 12 - s.months.next
  {
    var s1 := CreateMonth(s, yearId, year, s.months.next - start + 1).0;
    assert AddMonths(s, yearId, year, start) == AddMonths(s1, yearId, year, start);
    if k == s.months.next {
      assert s1.months.rows[k] == Month(yearId, year, k - start + 1);
      AddMonthsKeepsMonths(s1, yearId, year, start, k);
    } else {
      AddMonthsNewMonth(s1, yearId, year, start, k);
    }
  }

  /** The loop adds no month rows besides those keys. */
  lemma {:induction false} AddMonthsOnlyNewMonths(s: Store, yearId: int, year: int, start: int, k: int)
    requires start <= s.months.next <= start + 12 && Keyed(s)
    requires k in AddMonths(s, yearId, year, start).months.rows
    ensures k in s.months.rows || s.months.next <= k < start + 12
    decreases start + 12 - s.months.next
  {
    if s.months.next < start + 12 {
      var s1 := CreateMonth(s, yearId, year, s.months.next - start + 1).0;
      assert AddMonths(s, yearId, year, start) == AddMonths(s1, yearId, year, start);
      AddMonthsOnlyNewMonths(s1, yearId, year, start, k);
    }
  }

  /** The loop keeps the older day rows. */
  lemma {:induction false} AddMonthsKeepsDay(s: Store, yearId: int, year: int, start: int, k: int)
    requires start <= s.months.next <= start + 12 && Keyed(s) && k in s.days.rows
    ensures var r := AddMonths(s, yearId, year, start);
      k in r.days.rows && r.days.rows[k] == s.days.rows[k]
    decreases start + 12 - s.months.next
  {
    if s.months.next < start + 12 {
      var m := s.months.next - start + 1;
      var s1 := CreateMonth(s, yearId, year, m).0;
      assert AddMonths(s, yearId, year, start) == AddMonths(s1, yearId, year, start);
      CreateMonthKeepsDay(s, yearId, year, m, k);
      AddMonthsKeepsDay(s1, yearId, year, start, k);
    }
  }

  /** Every day row the loop adds belongs to the new year and to one of the new months. */
  lemma {:induction false} AddMonthsNewDay(s: Store, yearId: int, year: int, start: int, k: int)
    requires start <= s.months.next <= start + 12 && Keyed(s)
    requires k in AddMonths(s, yearId, year, start).days.rows && k !in s.days.rows
    ensures var d := AddMonths(s, yearId, year, start).days.rows[k];
      d.yearId == yearId && s.months.next <= d.monthId < start + 12
    decreases start + 12 - s.months.next
  {
    if s.months.next < start + 12 {
      var m := s.months.next - start + 1;
      var s1 := CreateMonth(s, yearId, year, m).0;
      assert AddMonths(s, yearId, year, start) == AddMonths(s1, yearId, year, start);
      if k in s1.days.rows {
        CreateMonthDay(s, yearId, year, m, k);
        AddMonthsKeepsDay(s1, yearId, year, start, k);
      } else {
        AddMonthsNewDay(s1, yearId, year, start, k);
      }
    }
  }

  /** The loop keeps the links when the year row exists. */
  lemma AddMonthsKeepsLinks(s: Store, yearId: int, year: int, start: int)
    requires start <= s.months.next <= start + 12 && Keyed(s) && Linked(s) && yearId in s.years.rows
    ensures Linked(AddMonths(s, yearId, year, start))
  {
    var r := AddMonths(s, yearId, year, start);
    forall k | k in r.months.rows
      ensures r.months.rows[k].yearId in r.years.rows
    {
      AddMonthsOnlyNewMonths(s, yearId, year, start, k);
      if k in s.months.rows {
        AddMonthsKeepsMonths(s, yearId, year, start, k);
      } else {
        AddMonthsNewMonth(s, yearId, year, start, k);
      }
    }
    forall k | k in r.days.rows
      ensures r.days.rows[k].monthId in r.months.rows
      ensures r.months.rows[r.days.rows[k].monthId].yearId == r.days.rows[k].yearId
    {
      if k in s.days.rows {
        AddMonthsKeepsDay(s, yearId, year, start, k);
        AddMonthsKeepsMonths(s, yearId, year, start, s.days.rows[k].monthId);
      } else {
        AddMonthsNewDay(s, yearId, year, start, k);
        AddMonthsNewMonth(s, yearId, year, start, r.days.rows[k].monthId);
      }
    }
  }

  /** A month that was filled before the loop is still filled after it. */
  lemma AddMonthsKeepsFilled(s: Store, yearId: int, year: int, start: int, mk: int)
    requires start <= s.months.next <= start + 12 && Keyed(s)
    requires mk in s.months.rows && 1 <= s.months.rows[mk].month <= 12 && MonthFilled(s, mk)
    ensures var r := AddMonths(s, yearId, year, start);
      mk in r.months.rows && r.months.rows[mk] == s.months.rows[mk] && MonthFilled(r, mk)
  {
    var r := AddMonths(s, yearId, year, start);
    AddMonthsKeepsMonths(s, yearId, year, start, mk);
    forall k | k in r.days.rows
      ensures k in DaysOf(r, mk) <==> k in DaysOf(s, mk)
    {
      if k in s.days.rows {
        AddMonthsKeepsDay(s, yearId, year, start, k);
      } else {
        AddMonthsNewDay(s, yearId, year, start, k);
      }
    }
    forall k | k in s.days.rows
      ensures k in r.days.rows && r.days.rows[k] == s.days.rows[k]
    {
      AddMonthsKeepsDay(s, yearId, year, start, k);
    }
    FilledFrame(s, r, mk);
  }

  /** Every month the loop adds ends up filled. */
  lemma {:induction false} AddMonthsFills(s: Store, yearId: int, year: int, start: int, k: int)
    requires start <= s.months.next <= start + 12 && Keyed(s) && DaysHaveMonths(s)
    requires k in AddMonths(s, yearId, year, start).months.rows && k !in s.months.rows
    ensures var r := AddMonths(s, yearId, year, start);
      1 <= r.months.rows[k].month <= 12 && MonthFilled(r, k)
    decreases start + 12 - s.months.next
  {
    var m := s.months.next - start + 1;
    var res := CreateMonth(s, yearId, year, m);
    var s1, mk := res.0, res.1;
    assert AddMonths(s, yearId, year, start) == AddMonths(s1, yearId, year, start);
    CreateMonthKeepsDaysHaveMonths(s, yearId, year, m);
    if k == mk {
      CreateMonthFillsMonth(s, yearId, year, m);
      AddMonthsKeepsFilled(s1, yearId, year, start, mk);
    } else {
      AddMonthsFills(s1, yearId, year, start, k);
    }
  }

  // ---------------------------------------------------------------------------
  // createYear and deleteYear

  /** The store the month loop of `createYear` starts from: the new year row added. */
  function WithYear(s: Store, year: int): (s1: Store)
    ensures s1.months == s.months && s1.days == s.days
    ensures Keyed(s) ==> Keyed(s1)
    ensures s.years.next in s1.years.rows && s1.years.rows == s.years.rows[s.years.next := Year(year)]
  {
    s.(years := Insert(s.years, Year(year)).0)
  }

  lemma CreateYearIsLoop(s: Store, year: int, r: Store, id: int)
    requires CreateYear(s, year) == Success((r, id))
    ensures id == s.years.next && r == AddMonths(WithYear(s, year), id, year, s.months.next)
  {
  }

  /** No stored month or day belongs to a key that is not a stored year. */
  lemma NothingUnderNewKey(s: Store, yearId: int)
    requires Linked(s) && yearId !in s.years.rows
    ensures forall k :: k in s.months.rows ==> s.months.rows[k].yearId != yearId
    ensures forall k :: k in s.days.rows ==> s.days.rows[k].yearId != yearId
  {
    forall k | k in s.days.rows
      ensures s.days.rows[k].yearId != yearId
    {
      assert s.days.rows[k].monthId in s.months.rows;
    }
  }

  lemma WithYearKeepsLinks(s: Store, year: int)
    requires Linked(s)
    ensures Linked(WithYear(s, year))
  {
    var s1 := WithYear(s, year);
    forall k | k in s1.days.rows
      ensures s1.days.rows[k].monthId in s1.months.rows
      ensures s1.months.rows[s1.days.rows[k].monthId].yearId == s1.days.rows[k].yearId
    {
      assert s1.days.rows[k] == s.days.rows[k];
    }
  }

  /** `createYear` keeps the links and the uniqueness of year numbers. */
  lemma CreateYearKeepsGood(s: Store, year: int, r: Store, id: int)
    requires Good(s) && CreateYear(s, year) == Success((r, id))
    ensures Good(r)
  {
    CreateYearIsLoop(s, year, r, id);
    WithYearKeepsLinks(s, year);
    AddMonthsKeepsLinks(WithYear(s, year), id, year, s.months.next);
    CreateYearKeepsUniqueYears(s, year, r, id);
  }

  lemma CreateYearKeepsUniqueYears(s: Store, year: int, r: Store, id: int)
    requires UniqueYears(s) && CreateYear(s, year) == Success((r, id))
    ensures UniqueYears(r)
  {
    assert !YearTaken(s, year);
    assert r.years.rows == s.years.rows[id := Year(year)];
  }

  /** A month row belongs to the new year exactly when its key is one of the twelve new ones. */
  lemma CreateYearMonthKey(s: Store, year: int, r: Store, id: int, k: int)
    requires Keyed(s) && Linked(s) && CreateYear(s, year) == Success((r, id))
    ensures k in MonthsOf(r, id) <==> s.months.next <= k < s.months.next + 12
    ensures k in MonthsOf(r, id) ==> r.months.rows[k] == Month(id, year, k - s.months.next + 1)
  {
    CreateYearIsLoop(s, year, r, id);
    var s1, start := WithYear(s, year), s.months.next;
    NothingUnderNewKey(s, id);
    if k in r.months.rows {
      AddMonthsOnlyNewMonths(s1, id, year, start, k);
      if k in s.months.rows {
        AddMonthsKeepsMonths(s1, id, year, start, k);
        assert r.months.rows[k].yearId != id;
      } else {
        AddMonthsNewMonth(s1, id, year, start, k);
      }
    } else if start <= k < start + 12 {
      AddMonthsNewMonth(s1, id, year, start, k);
    }
  }

  /**
   * The new year has exactly twelve month rows, under the twelve keys from
   * the month key generator's old value on, holding months 1 to 12 in key
   * order.
   */
  lemma CreateYearMonths(s: Store, year: int, r: Store, id: int)
    requires Keyed(s) && Linked(s) && CreateYear(s, year) == Success((r, id))
    ensures MonthsOf(r, id) == Range(s.months.next, s.months.next + 12)
    ensures |MonthsOf(r, id)| == 12
    ensures forall k :: k in MonthsOf(r, id) ==> r.months.rows[k] == Month(id, year, k - s.months.next + 1)
  {
    forall k | k in MonthsOf(r, id) || k in Range(s.months.next, s.months.next + 12)
      ensures k in MonthsOf(r, id) <==> k in Range(s.months.next, s.months.next + 12)
      ensures k in MonthsOf(r, id) ==> r.months.rows[k] == Month(id, year, k - s.months.next + 1)
    {
      CreateYearMonthKey(s, year, r, id, k);
    }
  }

  /**
   * Each month of the new year holds one day row per day of that month, as
   * `createMonth` writes it.
   */
  lemma CreateYearDays(s: Store, year: int, r: Store, id: int, k: int)
    requires Keyed(s) && Linked(s) && CreateYear(s, year) == Success((r, id))
    requires k in MonthsOf(r, id)
    ensures 1 <= r.months.rows[k].month <= 12 && MonthFilled(r, k)
  {
    CreateYearIsLoop(s, year, r, id);
    var s1 := WithYear(s, year);
    CreateYearMonthKey(s, year, r, id, k);
    assert DaysHaveMonths(s1);
    AddMonthsFills(s1, id, year, s.months.next, k);
  }

  /** Deleting the year just created gives back exactly the rows there were before. */
  lemma DeleteAfterCreate(s: Store, year: int, r: Store, id: int)
    requires Keyed(s) && Linked(s) && CreateYear(s, year) == Success((r, id))
    ensures DeleteYear(r, id).years.rows == s.years.rows
    ensures DeleteYear(r, id).months.rows == s.months.rows
    ensures DeleteYear(r, id).days.rows == s.days.rows
  {
    DeleteAfterCreateMonths(s, year, r, id);
    DeleteAfterCreateDays(s, year, r, id);
  }

  lemma DeleteAfterCreateMonths(s: Store, year: int, r: Store, id: int)
    requires Keyed(s) && Linked(s) && CreateYear(s, year) == Success((r, id))
    ensures DeleteYear(r, id).months.rows == s.months.rows
  {
    CreateYearIsLoop(s, year, r, id);
    NothingUnderNewKey(s, id);
    DeleteAfterLoopMonths(WithYear(s, year), id, year, r);
  }

  lemma DeleteAfterCreateDays(s: Store, year: int, r: Store, id: int)
    requires Keyed(s) && Linked(s) && CreateYear(s, year) == Success((r, id))
    ensures DeleteYear(r, id).days.rows == s.days.rows
  {
    CreateYearIsLoop(s, year, r, id);
    NothingUnderNewKey(s, id);
    DeleteAfterLoopDays(WithYear(s, year), id, year, r);
  }

  /** Removing the rows of `yearId` after the month loop removes exactly the loop's months. */
  lemma DeleteAfterLoopMonths(s: Store, yearId: int, year: int, r: Store)
    requires forall k :: k in s.months.rows ==> s.months.rows[k].yearId != yearId
    requires Keyed(s) && r == AddMonths(s, yearId, year, s.months.next)
    ensures DeleteYear(r, yearId).months.rows == s.months.rows
  {
    var t, start := DeleteYear(r, yearId), s.months.next;
    forall k | k in t.months.rows || k in s.months.rows
      ensures k in t.months.rows <==> k in s.months.rows
      ensures k in s.months.rows ==> t.months.rows[k] == s.months.rows[k]
    {
      if k in s.months.rows {
        AddMonthsKeepsMonths(s, yearId, year, start, k);
      } else if k in r.months.rows {
        AddMonthsOnlyNewMonths(s, yearId, year, start, k);
        AddMonthsNewMonth(s, yearId, year, start, k);
      }
    }
  }

  /** Removing the rows of `yearId` after the month loop removes exactly the loop's days. */
  lemma DeleteAfterLoopDays(s: Store, yearId: int, year: int, r: Store)
    requires forall k :: k in s.days.rows ==> s.days.rows[k].yearId != yearId
    requires Keyed(s) && r == AddMonths(s, yearId, year, s.months.next)
    ensures DeleteYear(r, yearId).days.rows == s.days.rows
  {
    var a, b := DeleteYear(r, yearId).days.rows, s.days.rows;
    forall k | k in a || k in b
      ensures k in a <==> k in b
      ensures k in b ==> a[k] == b[k]
    {
      DeleteAfterLoopDay(s, yearId, year, r, k);
    }
    SameRows(a, b);
  }

  lemma SameRows<T>(a: map<int, T>, b: map<int, T>)
    requires forall k :: k in a || k in b ==> (k in a <==> k in b) && (k in b ==> a[k] == b[k])
    ensures a == b
  {
    forall k | k in a
      ensures k in b && a[k] == b[k]
    {
    }
    forall k | k in b
      ensures k in a
    {
    }
    assert a.Keys == b.Keys;
  }

  lemma DeleteAfterLoopDay(s: Store, yearId: int, year: int, r: Store, k: int)
    requires k in s.days.rows ==> s.days.rows[k].yearId != yearId
    requires Keyed(s) && r == AddMonths(s, yearId, year, s.months.next)
    ensures var t := DeleteYear(r, yearId);
      (k in t.days.rows <==> k in s.days.rows) &&
      (k in s.days.rows ==> t.days.rows[k] == s.days.rows[k])
  {
    if k in s.days.rows {
      AddMonthsKeepsDay(s, yearId, year, s.months.next, k);
    } else if k in r.days.rows {
      AddMonthsNewDay(s, yearId, year, s.months.next, k);
    }
  }

  /** `deleteYear` leaves nothing pointing at a missing row, and year numbers stay unique. */
  lemma DeleteYearKeepsGood(s: Store, yearId: int)
    requires Good(s)
    ensures Good(DeleteYear(s, yearId))
  {
    var t := DeleteYear(s, yearId);
    forall k | k in t.days.rows
      ensures t.days.rows[k].monthId in t.months.rows
      ensures t.months.rows[t.days.rows[k].monthId].yearId == t.days.rows[k].yearId
    {
      var mid := s.days.rows[k].monthId;
      assert mid in s.months.rows && s.months.rows[mid].yearId == s.days.rows[k].yearId;
    }
  }

  // ---------------------------------------------------------------------------
  // setDayCode and clearDayCode

  /**
   * Clearing the code of any edited version of a freshly created day gives
   * back the day exactly as `createMonth` wrote it.
   */
  lemma ClearRestoresNewDay(e: Day, monthId: int, yearId: int, year: int, month: int, day: int)
    requires 1 <= month <= 12 && 1 <= day <= DaysInMonth(JsYear(year), month)
    requires SameCalendar(e, NewDay(monthId, yearId, year, month, day))
    ensures ClearedDay(e) == NewDay(monthId, yearId, year, month, day)
  {
  }

  /** Setting a code and clearing it again leaves the store as it was, for a day nobody had edited. */
  lemma SetThenClear(s: Store, id: int, c: Code, monthId: int, yearId: int, year: int, month: int, day: int)
    requires 1 <= month <= 12 && 1 <= day <= DaysInMonth(JsYear(year), month)
    requires id in s.days.rows && s.days.rows[id] == NewDay(monthId, yearId, year, month, day)
    ensures var (s1, _) := SetDayCode(s, id, c);
      ClearDayCode(s1, id) == Success((s, s.days.rows[id]))
  {
    var (s1, r) := SetDayCode(s, id, c);
    ClearRestoresNewDay(r.value, monthId, yearId, year, month, day);
    assert s1.days.rows[id := s.days.rows[id]] == s.days.rows;
  }
}

=== FILE: sync.dfy ===
/**
 * The SQLite backup: a second database with the same three tables, kept as
 * a full copy of the primary store. `syncToSQLite` (mirror) replaces the
 * backup by the store, `syncFromSQLite` (rebuild) replaces the store by the
 * backup, and `hasSQLiteData` decides at startup which way to copy.
 */
module Sync {
  import opened Wrappers
  import opened Records
  import opened Store
  import opened StoreProps

  /** A `days` row: SQLite has no boolean type, so the weekend flag is stored as 1 or 0. */
  datatype DayRow = DayRow(
    monthId: int,
    yearId: int,
    year: int,
    month: int,
    day: int,
    date: Date,
    dayOfWeek: int,
    isWeekend: int,
    isoWeek: int,
    von: string,
    bis: string,
    von2: string,
    bis2: string,
    pause: string,
    code: Code,
    comment: string,
    sollStunden: real,
    istStunden: real
  )

  /** The three tables of the backup, rows by their `id` column. */
  datatype Snapshot = Snapshot(years: map<int, Year>, months: map<int, Month>, days: map<int, DayRow>)

  /**
   * The backup database the app holds: the three tables, or an imported
   * file that does not hold them, on which every statement fails.
   */
  datatype SqlDb = Tables(snap: Snapshot) | Unreadable

  /** A day bound into the `days` INSERT. */
  function ToRow(d: Day): (r: DayRow)
    ensures r.isWeekend == if d.isWeekend then 1 else 0
  {
    DayRow(d.monthId, d.yearId, d.year, d.month, d.day, d.date, d.dayOfWeek, if d.isWeekend then 1 else 0,
           d.isoWeek, d.von, d.bis, d.von2, d.bis2, d.pause, d.code, d.comment, d.sollStunden, d.istStunden)
  }

  /** A `days` row read back into a day; every reader of the flag tests its truth. */
  function FromRow(r: DayRow): (d: Day)
    ensures d.isWeekend <==> r.isWeekend != 0
  {
    Day(r.monthId, r.yearId, r.year, r.month, r.day, r.date, r.dayOfWeek, r.isWeekend != 0,
        r.isoWeek, r.von, r.bis, r.von2, r.bis2, r.pause, r.code, r.comment, r.sollStunden, r.istStunden)
  }

  lemma DayRoundTrip(d: Day)
    ensures FromRow(ToRow(d)) == d
  {
  }

  /** A row whose flag is 0 or 1 is what the day read back from it writes. */
  lemma RowRoundTrip(r: DayRow)
    requires r.isWeekend == 0 || r.isWeekend == 1
    ensures ToRow(FromRow(r)) == r
  {
  }

  /** The backup of a store, row for row under the same ids. */
  function Encode(s: Store): (snap: Snapshot)
    ensures snap.years == s.years.rows && snap.months == s.months.rows
    ensures forall k :: k in snap.days <==> k in s.days.rows
    ensures forall k :: k in snap.days ==> FromRow(snap.days[k]) == s.days.rows[k]
  {
    var days := map k | k in s.days.rows :: ToRow(s.days.rows[k]);
    assert forall k :: k in days ==> FromRow(days[k]) == s.days.rows[k] by {
      forall k | k in days {
        DayRoundTrip(s.days.rows[k]);
      }
    }
    Snapshot(s.years.rows, s.months.rows, days)
  }

  /** Every weekend flag in the backup is 0 or 1, as the `days` INSERT writes it. */
  predicate FlagsAreBits(snap: Snapshot) {
    forall k :: k in snap.days ==> snap.days[k].isWeekend == 0 || snap.days[k].isWeekend == 1
  }

  // ---------------------------------------------------------------------------
  // syncToSQLite

  /** Some row of the table carries year number `y`. */
  predicate YearIn(t: map<int, Year>, y: int) {
    exists k :: k in t && t[k].year == y
  }

  /**
   * The year loop of `syncToSQLite`: the rows under keys `ks`, in that order,
   * into a `years` table whose `id` is the primary key and whose `year` is
   * UNIQUE. An INSERT that breaks either throws and ends the sync; `false`
   * reports that, with the table as the earlier rows left it.
   */
  function InsertYears(ys: map<int, Year>, ks: seq<int>, table: map<int, Year>): (r: (map<int, Year>, bool))
    requires forall i :: 0 <= i < |ks| ==> ks[i] in ys
    decreases |ks|
  {
    if ks == [] then (table, true)
    else if ks[0] in table || YearIn(table, ys[ks[0]].year) then (table, false)
    else InsertYears(ys, ks[1..], table[ks[0] := ys[ks[0]]])
  }

  /**
   * The rows `InsertYears` leaves are rows of the store with distinct year
   * numbers; the loop runs to the end whenever the store's year numbers are
   * distinct, and then it has inserted every row.
   */
  lemma {:induction false} InsertYearsSpec(ys: map<int, Year>, ks: seq<int>, table: map<int, Year>)
    requires forall i :: 0 <= i < |ks| ==> ks[i] in ys && ks[i] !in table
    requires forall i, j :: 0 <= i < j < |ks| ==> ks[i] < ks[j]
    requires forall k :: k in table ==> k in ys && table[k] == ys[k]
    requires DistinctYears(table)
    ensures var (t, ok) := InsertYears(ys, ks, table);
      && (forall k :: k in t ==> k in ys && t[k] == ys[k])
      && DistinctYears(t)
      && (DistinctYears(ys) ==> ok)
      && (ok ==> forall k :: k in t <==> k in table || k in ks)
    decreases |ks|
  {
    if ks != [] {
      var k0 := ks[0];
      assert forall j :: j in table && DistinctYears(ys) && table[j].year == ys[k0].year ==> j == k0;
      if !(k0 in table || YearIn(table, ys[k0].year)) {
        var table' := table[k0 := ys[k0]];
        assert DistinctYears(table') by {
          forall a, b | a in table' && b in table' && table'[a].year == table'[b].year
            ensures a == b
          {
            if a == k0 && b != k0 {
              assert false;
            } else if b == k0 && a != k0 {
              assert false;
            }
          }
        }
        assert forall i :: 0 <= i < |ks[1..]| ==> ks[1..][i] == ks[i + 1];
        InsertYearsSpec(ys, ks[1..], table');
        assert InsertYears(ys, ks, table) == InsertYears(ys, ks[1..], table');
        assert forall k :: k in ks <==> k == k0 || k in ks[1..];
      }
    }
  }

  /**
   * The tables `syncToSQLite` leaves in the backup: all three cleared, then
   * the years, months and days of the store in key order. After a failed
   * year INSERT only the years inserted before it are there. The months and
   * days INSERTs cannot fail: their ids are distinct and SQLite does not
   * enforce the foreign keys by default.
   */
  function MirrorTables(s: Store): Snapshot {
    var (years, ok) := InsertYears(s.years.rows, KeyOrder(s.years.rows.Keys), map[]);
    if ok then Snapshot(years, s.months.rows, Encode(s).days)
    else Snapshot(years, map[], map[])
  }

  /** `syncToSQLite`: nothing without a backup database; an unreadable one fails at its first DELETE. */
  function Mirror(s: Store, db: Option<SqlDb>): (r: Option<SqlDb>)
    ensures db.None? ==> r.None?
    ensures db == Some(Unreadable) ==> r == db
    ensures db.Some? && db.value.Tables? ==> r.Some? && r.value.Tables? && FlagsAreBits(r.value.snap)
  {
    match db
    case None => None
    case Some(Unreadable) => db
    case Some(Tables(_)) => Some(Tables(MirrorTables(s)))
  }

  /** The backup after a mirror is the store, row for row, exactly when the year numbers are distinct. */
  lemma MirrorCopiesStore(s: Store, snap: Snapshot)
    ensures Mirror(s, Some(Tables(snap))) == Some(Tables(Encode(s))) <==> UniqueYears(s)
  {
    var ys := s.years.rows;
    var (years, ok) := InsertYears(ys, KeyOrder(ys.Keys), map[]);
    InsertYearsSpec(ys, KeyOrder(ys.Keys), map[]);
    if ok {
      SameRows(years, ys);
    }
  }

  /**
   * When two stored years share a year number, the backup keeps only the
   * years inserted before the clash, with distinct numbers, and no month
   * or day.
   */
  lemma MirrorStopsAtDuplicate(s: Store, snap: Snapshot)
    requires !UniqueYears(s)
    ensures var r := Mirror(s, Some(Tables(snap))).value.snap;
      && r.months == map[] && r.days == map[]
      && DistinctYears(r.years) && r.years != s.years.rows
      && forall k :: k in r.years ==> k in s.years.rows && r.years[k] == s.years.rows[k]
  {
    var ys := s.years.rows;
    InsertYearsSpec(ys, KeyOrder(ys.Keys), map[]);
    var (years, ok) := InsertYears(ys, KeyOrder(ys.Keys), map[]);
    if ok {
      SameRows(years, ys);
    }
  }

  /** `hasSQLiteData`: the backup's `years` table has a row; a failing COUNT reads as no data. */
  function HasData(db: Option<SqlDb>): (b: bool)
    ensures b <==> db.Some? && db.value.Tables? && db.value.snap.years != map[]
  {
    match db
    case None => false
    case Some(Unreadable) => false
    case Some(Tables(snap)) => |snap.years| > 0
  }

  // ---------------------------------------------------------------------------
  // syncFromSQLite

  /**
   * The key generator after rows were added under their own keys `ks`: a
   * key at or above it moves it to one past that key, so it ends one past
   * the largest key, or where it was.
   */
  function KeyAbove(next: int, ks: set<int>): (n: int)
    ensures n >= next && forall k :: k in ks ==> k < n
    ensures n == next || n - 1 in ks
  {
    if ks == {} then next
    else
      var order := KeyOrder(ks);
      var last := order[|order| - 1];
      assert forall k :: k in ks ==> k <= last by {
        forall k | k in ks
          ensures k <= last
        {
          var i :| 0 <= i < |order| && order[i] == k;
          assert i == |order| - 1 || order[i] < order[|order| - 1];
        }
      }
      if last >= next then last + 1 else next
  }

  /** `table.add(row)` for every row, with the row's own id, on a cleared table. */
  function Refill<T>(t: Table<T>, rows: map<int, T>): (r: Table<T>)
    ensures r.rows == rows && KeysBelow(r)
    ensures r.next >= t.next && (r.next == t.next || r.next - 1 in rows)
  {
    Table(rows, KeyAbove(t.next, rows.Keys))
  }

  /** `table.clear()`: the rows go, the key generator stays. */
  function Clear<T>(t: Table<T>): (r: Table<T>)
    ensures r.rows == map[] && r.next == t.next
  {
    Table(map[], t.next)
  }

  /**
   * `syncFromSQLite`: without a backup database, nothing. Otherwise the
   * store is cleared, then refilled from the backup's rows under their ids;
   * when the backup is unreadable the first SELECT fails and the store
   * stays cleared.
   */
  function Rebuild(s: Store, db: Option<SqlDb>): (r: Store)
    ensures db.None? ==> r == s
    ensures db.Some? ==> Keyed(r)
    ensures r.years.next >= s.years.next && r.months.next >= s.months.next && r.days.next >= s.days.next
    ensures db == Some(Unreadable) ==> r.years.rows == map[] && r.months.rows == map[] && r.days.rows == map[]
    ensures db.Some? && db.value.Tables? ==>
      && r.years.rows == db.value.snap.years && r.months.rows == db.value.snap.months
      && (forall k :: k in r.days.rows <==> k in db.value.snap.days)
      && (forall k :: k in r.days.rows ==> r.days.rows[k] == FromRow(db.value.snap.days[k]))
  {
    match db
    case None => s
    case Some(Unreadable) => Store(Clear(s.years), Clear(s.months), Clear(s.days))
    case Some(Tables(snap)) =>
      var days := map k | k in snap.days :: FromRow(snap.days[k]);
      Store(Refill(Clear(s.years), snap.years), Refill(Clear(s.months), snap.months), Refill(Clear(s.days), days))
  }

  /**
   * Mirror, then rebuild: the store gets back every row it had, under the
   * same ids, on any browser; on the same one it gets back itself.
   */
  lemma MirrorThenRebuild(s: Store, snap: Snapshot, t: Store)
    requires UniqueYears(s)
    ensures var r := Rebuild(t, Mirror(s, Some(Tables(snap))));
      r.years.rows == s.years.rows && r.months.rows == s.months.rows && r.days.rows == s.days.rows
    ensures Keyed(s) ==> Rebuild(s, Mirror(s, Some(Tables(snap)))) == s
  {
    MirrorCopiesStore(s, snap);
    var r := Rebuild(t, Mirror(s, Some(Tables(snap))));
    SameRows(r.days.rows, s.days.rows);
    if Keyed(s) {
      var r' := Rebuild(s, Mirror(s, Some(Tables(snap))));
      SameRows(r'.days.rows, s.days.rows);
      KeyAboveOfKeyed(s.years);
      KeyAboveOfKeyed(s.months);
      KeyAboveOfKeyed(s.days);
    }
  }

  /** Re-adding a table's own rows leaves its key generator where it was. */
  lemma KeyAboveOfKeyed<T>(t: Table<T>)
    requires KeysBelow(t)
    ensures KeyAbove(t.next, t.rows.Keys) == t.next
  {
  }

  /**
   * Rebuild, then mirror: a backup with distinct year numbers and 0/1 flags
   * is written back exactly as it was read.
   */
  lemma RebuildThenMirror(s: Store, snap: Snapshot)
    requires DistinctYears(snap.years) && FlagsAreBits(snap)
    ensures var r := Rebuild(s, Some(Tables(snap)));
      UniqueYears(r) && Mirror(r, Some(Tables(snap))) == Some(Tables(snap))
  {
    var r := Rebuild(s, Some(Tables(snap)));
    MirrorCopiesStore(r, snap);
    var e := Encode(r);
    forall k | k in e.days || k in snap.days
      ensures (k in e.days <==> k in snap.days) && (k in snap.days ==> e.days[k] == snap.days[k])
    {
      if k in snap.days {
        RowRoundTrip(snap.days[k]);
      }
    }
    SameRows(e.days, snap.days);
  }

  // ---------------------------------------------------------------------------
  // Startup and import

  /** The backup holds the store, row for row. */
  predicate InSync(s: Store, db: Option<SqlDb>) {
    db.Some? && db.value.Tables? && db.value.snap == Encode(s)
  }

  /**
   * The startup choice: with a backup that has years the store is rebuilt
   * from it; otherwise the store is mirrored into the backup. Without a
   * backup database the app runs on the store alone.
   */
  function Startup(s: Store, db: Option<SqlDb>): (r: (Store, Option<SqlDb>))
    ensures db.None? ==> r == (s, None)
    ensures HasData(db) ==>
      && r.1 == db
      && r.0.years.rows == db.value.snap.years && r.0.months.rows == db.value.snap.months
      && (forall k :: k in r.0.days.rows <==> k in db.value.snap.days)
    ensures db.Some? && !HasData(db) ==> r.0 == s && r.1 == Mirror(s, db)
  {
    if db.None? then (s, db)
    else if HasData(db) then (Rebuild(s, db), db)
    else (s, Mirror(s, db))
  }

  /**
   * After startup a readable backup and the store agree, whichever way the
   * copy went, as long as each side had distinct year numbers and the
   * backup had 0/1 flags.
   */
  lemma StartupSyncs(s: Store, snap: Snapshot)
    requires UniqueYears(s) && DistinctYears(snap.years) && FlagsAreBits(snap)
    ensures var (r, db) := Startup(s, Some(Tables(snap)));
      InSync(r, db) && UniqueYears(r)
  {
    if HasData(Some(Tables(snap))) {
      RebuildThenMirror(s, snap);
      var r := Rebuild(s, Some(Tables(snap)));
      MirrorCopiesStore(r, snap);
    } else {
      MirrorCopiesStore(s, snap);
    }
  }

  /**
   * `importSQLiteFile` as written: with a backup database open, the file
   * replaces it and the store is rebuilt from it, and the import reports
   * success, because the rebuild swallows its own failure. A file without
   * the three tables therefore empties the store and still reports success.
   */
  function ImportAsWritten(s: Store, db: Option<SqlDb>, file: SqlDb): (r: (Store, Option<SqlDb>, bool))
    ensures db.None? ==> r == (s, db, false)
    ensures db.Some? ==> r.2 && r.1 == Some(file)
    ensures db.Some? && file == Unreadable ==>
      r.0.years.rows == map[] && r.0.months.rows == map[] && r.0.days.rows == map[]
    ensures db.Some? && file.Tables? ==>
      r.0.years.rows == file.snap.years && r.0.months.rows == file.snap.months
  {
    if db.None? then (s, db, false)
    else (Rebuild(s, Some(file)), Some(file), true)
  }

  /** A store with a year, an unreadable file: the import reports success and the year is gone. */
  lemma ImportAsWrittenLosesData(s: Store, db: Option<SqlDb>)
    requires db.Some? && s.years.rows != map[]
    ensures var (r, _, ok) := ImportAsWritten(s, db, Unreadable);
      ok && r.years.rows == map[] && r.years.rows != s.years.rows
  {
  }

  /**
   * `importSQLiteFile` with the failure reported: a file without the tables
   * is refused before anything is cleared, and store and backup stay as
   * they were.
   */
  function ImportChecked(s: Store, db: Option<SqlDb>, file: SqlDb): (r: (Store, Option<SqlDb>, bool))
    ensures !r.2 ==> r.0 == s && r.1 == db
    ensures r.2 <==> db.Some? && file.Tables?
    ensures r.2 ==> r.1 == Some(file) && Keyed(r.0)
    ensures r.2 ==> r.0.years.rows == file.snap.years && r.0.months.rows == file.snap.months
  {
    if db.None? || file.Unreadable? then (s, db, false)
    else (Rebuild(s, Some(file)), Some(file), true)
  }

  /** A successful import of a well-formed backup leaves store and backup in sync. */
  lemma ImportCheckedSyncs(s: Store, db: Option<SqlDb>, snap: Snapshot)
    requires db.Some? && DistinctYears(snap.years) && FlagsAreBits(snap)
    ensures var (r, db', ok) := ImportChecked(s, db, Tables(snap));
      ok && InSync(r, db') && UniqueYears(r) && Keyed(r)
  {
    RebuildThenMirror(s, snap);
    MirrorCopiesStore(Rebuild(s, Some(Tables(snap))), snap);
  }
}

=== FILE: timecalc.dfy ===
/** Worked hours of a day from its "HH:MM" time fields (`calculateWorkHours`). */
module TimeCalc {

  predicate IsDigit(c: char) {
    '0' <= c <= '9'
  }

  function DigitValue(c: char): (v: nat)
    requires IsDigit(c)
    ensures v <= 9
  {
    (c as int) - ('0' as int)
  }

  /** A clock time as a time input delivers it: two digits, a colon, two digits. */
  predicate IsClockTime(s: string) {
    |s| == 5 && IsDigit(s[0]) && IsDigit(s[1]) && s[2] == ':' && IsDigit(s[3]) && IsDigit(s[4])
  }

  /** A time field holds a clock time or is left empty. */
  predicate IsTimeField(s: string) {
    s == "" || IsClockTime(s)
  }

  /** Minutes since midnight: `H * 60 + M` after splitting at the colon. */
  function ClockMinutes(s: string): (n: nat)
    requires IsClockTime(s)
    ensures n <= 99 * 60 + 99
  {
    var hours := DigitValue(s[0]) * 10 + DigitValue(s[1]);
    var minutes := DigitValue(s[3]) * 10 + DigitValue(s[4]);
    hours * 60 + minutes
  }

  /** Minutes of a work block; a block with an empty end contributes nothing. */
  function BlockMinutes(from: string, to: string): int
    requires IsTimeField(from) && IsTimeField(to)
  {
    if from == "" || to == "" then 0 else ClockMinutes(to) - ClockMinutes(from)
  }

  /** Minutes of the break; an empty break is no break. */
  function PauseMinutes(pause: string): nat
    requires IsTimeField(pause)
  {
    if pause == "" then 0 else ClockMinutes(pause)
  }

  predicate TimeFields(von: string, bis: string, von2: string, bis2: string, pause: string) {
    IsTimeField(von) && IsTimeField(bis) && IsTimeField(von2) && IsTimeField(bis2) && IsTimeField(pause)
  }

  /** Both blocks minus the break, in minutes, before clamping. */
  function NetMinutes(von: string, bis: string, von2: string, bis2: string, pause: string): int
    requires TimeFields(von, bis, von2, bis2, pause)
  {
    BlockMinutes(von, bis) + BlockMinutes(von2, bis2) - PauseMinutes(pause)
  }

  /**
   * `calculateWorkHours`: the net minutes as hours, clamped at zero, so that
   * an inverted range or an oversized break never yields negative hours.
   */
  function CalculateWorkHours(von: string, bis: string, von2: string, bis2: string, pause: string): (h: real)
    requires TimeFields(von, bis, von2, bis2, pause)
    ensures h >= 0.0
    ensures NetMinutes(von, bis, von2, bis2, pause) >= 0 ==>
      h * 60.0 == NetMinutes(von, bis, von2, bis2, pause) as real
    ensures NetMinutes(von, bis, von2, bis2, pause) <= 0 ==> h == 0.0
  {
    var minutes := NetMinutes(von, bis, von2, bis2, pause);
    if minutes > 0 then minutes as real / 60.0 else 0.0
  }

  // ---------------------------------------------------------------------------

  /** 08:00 to 16:00 with a half-hour break is seven and a half hours. */
  lemma StandardDayExample()
    ensures TimeFields("08:00", "16:00", "", "", "00:30")
    ensures CalculateWorkHours("08:00", "16:00", "", "", "00:30") == 7.5
  {
    assert ClockMinutes("16:00") == 960;
    assert ClockMinutes("08:00") == 480;
    assert ClockMinutes("00:30") == 30;
  }

  /** The fixed absence times `setDayCode` writes are worth exactly eight hours. */
  lemma AbsenceTimesAreEightHours()
    ensures TimeFields("08:00", "16:00", "", "", "00:00")
    ensures CalculateWorkHours("08:00", "16:00", "", "", "00:00") == 8.0
  {
    assert ClockMinutes("16:00") == 960;
    assert ClockMinutes("08:00") == 480;
    assert ClockMinutes("00:00") == 0;
  }

  /** The two blocks play the same role: swapping them changes nothing. */
  lemma BlocksCommute(von: string, bis: string, von2: string, bis2: string, pause: string)
    requires TimeFields(von, bis, von2, bis2, pause)
    ensures CalculateWorkHours(von, bis, von2, bis2, pause) == CalculateWorkHours(von2, bis2, von, bis, pause)
  {
  }

  /** A block with only one end filled in is ignored. */
  lemma HalfFilledBlockIgnored(von: string, bis: string, von2: string, bis2: string, pause: string)
    requires TimeFields(von, bis, von2, bis2, pause)
    requires von == "" || bis == ""
    ensures CalculateWorkHours(von, bis, von2, bis2, pause) == CalculateWorkHours("", "", von2, bis2, pause)
  {
  }

  /** A longer break never yields more hours. */
  lemma LongerBreakNeverMoreHours(von: string, bis: string, von2: string, bis2: string, p1: string, p2: string)
    requires TimeFields(von, bis, von2, bis2, p1) && IsTimeField(p2)
    requires PauseMinutes(p1) <= PauseMinutes(p2)
    ensures CalculateWorkHours(von, bis, von2, bis2, p2) <= CalculateWorkHours(von, bis, von2, bis2, p1)
  {
  }
}

=== FILE: wrappers.dfy ===
/** Failure-compatible wrappers used across the model. */
module Wrappers {

  /** A value that may be absent: the source's `undefined` result. */
  datatype Option<+T> = None | Some(value: T)

  /** The outcome of an operation that can throw: a value or the error it raised. */
  datatype Result<+R, +E> = Success(value: R) | Failure(error: E) {
    predicate IsFailure() {
      Failure?
    }

    function PropagateFailure<U>(): Result<U, E>
      requires Failure?
    {
      Failure(error)
    }

    function Extract(): R
      requires Success?
    {
      value
    }
  }
}
